=== FILE: README.md ===
# Mind-map store, layout and subject service

This project models the core of the "Interactive Mind-Map Teacher", a React
Native screen. The user types a subject. A service answers with a description
and a list of subcategories. The screen draws the subject as a root box, and a
long press on a box expands it with its subcategories or collapses it again.

The model covers three parts.

- **Node store** (`components/MindMap.js`). A JavaScript `Map` from id to
  node, plus a separate edge list.
  - It is modelled as `Store(nodes: map<Id, Node>, order: seq<Id>, edges: seq<Edge>)`.
  - A node's `name` field is the JavaScript `label` (`node.label`), and a
    reply entry's `name` is `sc.name`.
  - `order` is the map's insertion order, which decides which root is laid
    out.
  - An id is the label, a dash and the store size plus one in radix 36
    (`nextId`). The radix-36 numeral is written out and parsed back.
  - The operations are `addNode`, `removeSubtree` (with its recursive
    `removeNode`), the long-press handler `handleLongPress` and
    `initialize`.
- **Layout** (`layout`, `leafCount`, `layoutNode`). A pre-order walk from
  the first parentless node in insertion order.
  - Every reached node gets a vertical band of `max(1, leaves) * 96`, an `x`
    column per level and a `y` centred in its band.
  - The walk updates one map in place. The model threads that map through the
    recursion, so every read sees the updates made so far.
  - The JavaScript recursions have no cycle guard, so they are modelled on
    maps that admit a *ranking*: a ghost `rank` under which every present
    child ranks below its lister.
  - Every store transition is proved to keep some ranking, so this
    precondition holds on every store the screen can reach.
- **Subject service** (`services/mindmap.js`). A fixed table of demo replies,
  a module-level `isDemo` flag and `generateMindMap`.
  - It answers from the table in demo mode or without an API client.
  - Otherwise it asks the remote model. On the first error it switches to demo
    mode for good.
  - The remote call is an input (`ApiOutcome`). For a string subject the
    promise never rejects: remote errors are caught, and both
    `subject.toLowerCase()` calls succeed. A subject that is not a string
    makes it reject, at services/mindmap.js:76 offline and at
    services/mindmap.js:103 after a remote error.

The `await` in the long-press handler is modelled by parameters:

- `pressed` is the node as the press saw it.
- `base` is the store size that the handler's `nextId` captured.
- The store passed in is the one the updates finally apply to.

Since all of these are explicit, the model can state what happens when a
reply arrives after its node was deleted.

Modules, one per file: `Basics`, `Base36`, `Ids`, `Geometry`, `NodeStore`,
`Tree`, `Layout`, `LayoutProofs`, `MindMapService`, `Expansion`,
`StoreProofs`, `ToggleProofs`.

## Where the code departs from what a user would expect

The screen's own hint (components/MindMap.js:273) and the usual reading of a
mind map suggest behaviour the code does not have. The model follows the
code.

- **Gesture.** The hint says a double tap expands or collapses a node. The
  code toggles on a long press; a tap only selects.
- **Collapse.** One would expect collapsing to delete the subtree *under* the
  node and keep the node itself, collapsed. The code deletes the pressed node
  together with its whole subtree (`Expansion.LongPress`, first case). The
  follow-up `expanded = false` update then finds nothing.
- **Id uniqueness.** Ids look unique but are not: they repeat when the store
  size returns to an earlier value. Every child of one batch also uses the
  same captured size, so two entries with the same name get the same id
  (`Ids.NextIdCollision`, `ToggleProofs.RepeatedNameBreaksTree`).
- **Child count.** The count is whatever the reply lists: the demo table has
  four finance entries and three technology entries.
- **Expanded flag.** The code sets `expanded` even for a reply whose
  subcategories are not a list, and then adds no children.
- **No busy state.** There is no "expanding" flag, rollback or guard against
  a second press while a fetch is pending. A failed fetch leaves the store as
  it was.
- **Late replies.** A reply for a node deleted during the fetch still adds
  the children and their edges, as orphans
  (`ToggleProofs.LateReplyOrphans`).
- **Generate.** `initialize` does not clear the store: each call adds one
  more parentless node and keeps everything else. The laid-out tree stays
  the first one (`ToggleProofs.InitializeKeepsFirstRoot`). The screen also
  calls `initialize('Finance')` by itself, again and again (see "## Left
  out"), so parentless "Finance" nodes keep piling up even without a press
  of Generate.

## Model

| member | source | states |
|---|---|---|
| `Geometry.Utf16Length` | components/MindMap.js:39 | `text.length` counts UTF-16 code units: between one and two per character, exactly one per character when all lie in the Basic Multilingual Plane. |
| `Geometry.Utf16Concat` | components/MindMap.js:39 | Code units add up over concatenation. |
| `Geometry.MeasureWidth` | components/MindMap.js:38-40 | The width always lies in [140, 260]. Measured in UTF-16 code units, it is 140 up to 14 units, 260 from 29 units, and `28 + 8 * units` in between. |
| `Geometry.MeasureWidthMonotone` | components/MindMap.js:38-40 | A label with more code units never gets a narrower box. |
| `Geometry.MeasureWidthExtend` | components/MindMap.js:38-40 | Extending a label never narrows its box. |
| `Base36.Encode` | components/MindMap.js:44 | `toString(36)` yields a canonical numeral: lower-case radix-36 digits, at least one, with no leading zero for a positive number. |
| `Base36.DecodeEncode` | components/MindMap.js:44 | Reading back the radix-36 numeral of `n` gives `n`. |
| `Base36.EncodeDecode` | components/MindMap.js:44 | Every canonical radix-36 numeral is the encoding of its value. |
| `Ids.NextId` | components/MindMap.js:42-45 | An id is the label, then a dash, then a canonical radix-36 numeral whose value is the store size plus one. |
| `Ids.ParseId` | components/MindMap.js:42-45 | A successful parse splits an id into a name and a serial that rebuild it. |
| `Ids.ParseNextId` | components/MindMap.js:42-45 | An id made by `nextId` parses back to its label and to the store size plus one. |
| `Ids.NextIdCollision` | components/MindMap.js:42-45 | Two ids coincide exactly when they were made from the same label at the same store size. |
| `NodeStore.FreshNode` | components/MindMap.js:49-61 | The node `addNode` builds: it carries the given id, label, description and parent, is not expanded, has no children, sits at level 0 in the root column at `y = 0` with height 42, and its width is the measured one, within [140, 260]. |
| `NodeStore.AddNode` | components/MindMap.js:47-81 | Inserts a fresh node (not expanded, no children, level 0, x 140, y 0, h 42, measured width) under the computed id; the key set grows by that id only. A present parent other than the new id gains the id at the end of its children; no other node changes. An edge is appended whenever a parent id is given, even an absent one. An existing id keeps its place in insertion order, a new one goes last. The store stays valid. |
| `NodeStore.RemoveNode` | components/MindMap.js:89-94 | Deletes exactly the node's descendant set (itself included); an absent id deletes nothing; survivors are unchanged. |
| `NodeStore.RemoveChildren` | components/MindMap.js:92 | Deleting a list of children removes exactly the union of their descendant sets. |
| `NodeStore.Without` | components/MindMap.js:100 | Keeps exactly the ids different from the removed one. |
| `Basics.Filter` | components/MindMap.js:108 | `Array.prototype.filter`: keeps exactly the elements that pass the test and is never longer than its input. |
| `Basics.FilterConcat` | components/MindMap.js:100 | Filtering distributes over concatenation, so the kept ids keep their order. |
| `Basics.FilterDistinct` | components/MindMap.js:100 | Filtering a list without repeats gives a list without repeats. |
| `NodeStore.RemoveFromMap` | components/MindMap.js:84-106 | An absent id changes nothing. Otherwise the node's whole subtree goes; the recorded parent, if it survives, drops exactly that id from its children; every other survivor is unchanged; the ranking still holds. |
| `NodeStore.RemoveSubtree` | components/MindMap.js:83-109 | The same node-map effect. For a present id the surviving nodes keep their insertion order (`new Map` then `delete`). The edge list is the old list without exactly the edges that start or end at the id, present or not, keeping order and repeats, so edges between deeper descendants stay. A present id leaves the store strictly smaller. The store stays valid. |
| `StoreProofs.EmptyStoreWellFormed` | components/MindMap.js:32-33 | The starting store, an empty map and an empty edge list, is valid and a forest under the empty ranking. |
| `StoreProofs.AddNodeRanked` | components/MindMap.js:63-74 | Adding a node never creates a cycle, whatever the id and parent: the old ranking, shifted up by one with the new id at rank 0, ranks the result. |
| `StoreProofs.AddNodeWellFormed` | components/MindMap.js:63-74 | Adding under an id not yet in the store keeps a forest a forest: children present, each naming its lister as parent, no repeats. |
| `StoreProofs.RemoveSubtreeWellFormed` | components/MindMap.js:84-106 | Removing a subtree keeps a forest a forest. No survivor lists a removed node, because the only outside lister of the subtree is the recorded parent of its top, and that parent drops the id. |
| `Tree.SiblingsDisjoint` | components/MindMap.js:140-143 | In a forest the subtrees of two different siblings share no node, so laying out one sibling cannot touch another. |
| `Layout.LeafCount` | components/MindMap.js:115-121 | A childless node counts one leaf. A node whose listed children are all missing from the map counts none. |
| `Layout.LeafSum` | components/MindMap.js:117-120 | Siblings missing from the map contribute nothing to the sum. |
| `Layout.Band` | components/MindMap.js:127-128 | The band of a present node is a positive multiple of 96 (so half a band is an integer); an absent id has band 0. |
| `Layout.Place` | components/MindMap.js:130-137 | Placing changes only geometry. The node gets the level, the column `140 + 240 * level`, the measured width in [140, 260], and height 48 at level 0 and 42 elsewhere. For an even band it sits exactly in the middle of its band. |
| `Layout.LayoutNode` | components/MindMap.js:123-145 | Returns the node's band. It changes only geometry and only inside the node's subtree. The node gets level, width, height (48 at level 0, else 42), `x = 140 + 240 * level` and `y = topY + band / 2`. |
| `Layout.LayoutChildren` | components/MindMap.js:140-143 | The final cursor is the start plus the sum of the children's bands. Only geometry changes, and only inside the children's subtrees. |
| `Layout.FirstRootFrom` | components/MindMap.js:112 | Finds the first parentless node in insertion order; "none" means no parentless node exists. |
| `Layout.Layout` | components/MindMap.js:111-148 | With no parentless node the store is unchanged. Otherwise the first parentless node is placed at level 0 with its band starting at 60, and nodes outside its subtree, the order and the edges are untouched. The store stays valid. |
| `LayoutProofs.LeafCountPositive` | components/MindMap.js:115-121 | In a store whose children are all present, every node has at least one leaf. |
| `LayoutProofs.BandSumIsLeaves` | components/MindMap.js:115-128 | When all children are present, the children's bands add up to 96 times their total leaf count. |
| `LayoutProofs.BandsTile` | components/MindMap.js:115-128 | A parent's band is exactly the sum of its children's bands. |
| `LayoutProofs.BandSumConcat` | components/MindMap.js:140-143 | Band sums add over concatenated sibling lists. |
| `LayoutProofs.OffsetMonotone` | components/MindMap.js:140-143 | The cursor never moves backwards along the children. |
| `LayoutProofs.LayoutDeterministic` | components/MindMap.js:111-147 | Layout depends only on the non-geometry fields. Two stores that differ only in geometry pick the same root, and their results agree on every node of that root's subtree. |
| `LayoutProofs.LayoutNodeSubtree` | components/MindMap.js:140-143 | In a forest, laying out a parent gives every node under its `i`-th child exactly what laying out that child alone gives, with the child's band starting at the parent's top plus the bands of the earlier children. |
| `LayoutProofs.ChildPlaced` | components/MindMap.js:123-143 | Each child of a laid-out parent is placed one level deeper, with its band starting where the earlier siblings' bands end. |
| `LayoutProofs.SiblingsTile` | components/MindMap.js:140-144 | The children's bands tile the parent's band in order. The first starts at the parent's top, each next starts where the previous ends, and the last ends at the parent's band. So sibling `y` values strictly increase. |
| `MindMapService.LowerChar` | services/mindmap.js:76 | Upper-case ASCII letters move down by 32; every other character stays; the result is never upper case. |
| `MindMapService.ToLowerAscii` | services/mindmap.js:76 | Lowering keeps the length and lowers each character in place. |
| `MindMapService.ToLowerIdempotent` | services/mindmap.js:76 | Lowering twice is lowering once. |
| `MindMapService.DemoLookup` | services/mindmap.js:76-78 | Any capitalisation of "technology" gets the technology reply (3 entries); anything else the finance reply (4 entries); the reply always carries a list. |
| `MindMapService.DemoLookupAsWritten` | services/mindmap.js:78 | Indexing the plain object also finds inherited keys. "constructor" and "__proto__" (in any capitalisation) give a reply with no description and no list; every other subject agrees with the corrected lookup. |
| `MindMapService.InheritedKeyLookup` | services/mindmap.js:78 | For "constructor" the table as written gives a reply without a list, where the default finance reply was meant. |
| `MindMapService.SetDemoMode` | services/mindmap.js:69-71 | Sets the flag to the argument and changes nothing else. |
| `MindMapService.Normalize` | services/mindmap.js:96 | An array passes through; a missing field becomes the empty list; any other truthy value stays something without `.map`. |
| `MindMapService.GenerateMindMap` | services/mindmap.js:73-106 | The flag ends up on exactly when it was on or a client met an error. Offline or on error the reply is the demo lookup. On success the description passes through unchanged and the list is normalised. The call never fails. |
| `MindMapService.GenerateMindMapAsWritten` | services/mindmap.js:73-106 | With the lookup as written, the state evolves exactly as with the corrected lookup, and so does every reply, except one case. A table answer for "constructor" or "__proto__" (any capitalisation) is the inherited value, with no description and no list. |
| `MindMapService.Calls` | services/mindmap.js:73-106 | A run of calls, each settling before the next starts, gives one reply per call and never changes whether a client exists. |
| `MindMapService.DemoIsSticky` | services/mindmap.js:75-79 | Once demo mode is on, every later call answers from the table and the flag stays on, whatever the remote outcomes. |
| `MindMapService.ErrorSwitchesToDemo` | services/mindmap.js:98-105 | In a run of calls that do not overlap, after the first remote error every call from that one on answers from the table, and the flag ends up on. |
| `MindMapService.Overlapped` | services/mindmap.js:73-106 | Two calls in flight at once each follow the state they started in: offline or on its own error a call answers from the table, otherwise with its own remote reply. The flag ends up on when it was on or, with a client, either request failed. |
| `MindMapService.OverlapNotSticky` | services/mindmap.js:75-101 | With a client, when the first of two overlapping calls fails, the flag turns on and the second still gets its remote reply. Run one after the other, the second would answer from the table. |
| `MindMapService.NoErrorNoDemo` | services/mindmap.js:69-106 | Without a remote error the flag never turns itself on. |
| `Expansion.MarkExpanded` | components/MindMap.js:292-303 | A node still present is marked expanded; it takes the reply's description unless that is empty; nothing else changes. An absent node leaves the store as it was. |
| `Expansion.SetCollapsed` | components/MindMap.js:283-290 | Clears `expanded` on a node that is still there and touches nothing else; an absent node leaves the store as it was. |
| `Expansion.BatchIds` | components/MindMap.js:307-312 | The `i`-th child of a batch gets the id made from its name and the one captured size. |
| `Expansion.BatchEdges` | components/MindMap.js:76-78 | One edge from the parent to each child id, in reply order. |
| `Expansion.AddChildren` | components/MindMap.js:307-312 | The keys become the old ones plus the batch's ids, and the edges gain one per entry, in order. |
| `Expansion.BatchKeepsValid` | components/MindMap.js:307-312 | A batch keeps the store valid. |
| `Expansion.BatchFrame` | components/MindMap.js:307-312 | A batch changes no node other than the parent and the new ids. |
| `Expansion.BatchParent` | components/MindMap.js:307-312 | A present parent that is not itself a new id gains all the batch's ids after its old children, in reply order, repeats included. |
| `Expansion.BatchSplit` | components/MindMap.js:307-312 | Adding a batch's children in two parts gives the same store as adding them all in one go. |
| `Expansion.BatchAround` | components/MindMap.js:307-312 | A batch is the children before entry `i`, then entry `i`'s `addNode`, then the rest. |
| `Expansion.LaterIdsDiffer` | components/MindMap.js:42-45 | When no later entry has entry `i`'s name, no later child id equals entry `i`'s id. |
| `Expansion.BatchChildFresh` | components/MindMap.js:307-312 | The child made for the last entry of each name is a fresh node under the parent, carrying that entry's name and description. |
| `Expansion.LongPress` | components/MindMap.js:280-317 | On a node shown expanded, the result is exactly `removeSubtree` of the pressed id: the follow-up `expanded = false` update finds nothing. The whole subtree goes, the node itself included, with exactly the edges at its id. On a collapsed node: a failure changes nothing; a reply without a list only marks the node; a list appends one edge per entry. The store stays valid. |
| `Expansion.Initialize` | components/MindMap.js:207-223 | Adds one parentless node for the subject, described by the reply or by the fixed failure text. Every other node and the edges stay. |
| `ToggleProofs.LongPressAcyclic` | components/MindMap.js:280-317 | Every long press keeps the store acyclic. |
| `ToggleProofs.LongPressWellFormed` | components/MindMap.js:280-317 | A collapse, a failure or a reply without a list keeps a forest a forest. So does a list whose ids are fresh and pairwise different. |
| `ToggleProofs.CollapseWellFormed` | components/MindMap.js:281-290 | A collapse keeps a forest a forest under the same ranking. |
| `ToggleProofs.ExpandWellFormed` | components/MindMap.js:291-312 | An expansion keeps a forest a forest when the batch's ids are fresh and pairwise different. |
| `ToggleProofs.ExpandPresent` | components/MindMap.js:292-312 | For a collapsed node still present, a list reply marks the node expanded with the reply's description (unless empty). The node lists the batch ids after its old children. Each last-of-name child is a fresh node under it, every other old node is unchanged, and one edge per entry is appended. |
| `ToggleProofs.RepeatedNameBreaksTree` | components/MindMap.js:307-312 | Two entries with the same name make the parent list one id twice, so the store is no longer a tree. |
| `ToggleProofs.LateReplyOrphans` | components/MindMap.js:292-312 | A reply that arrives after its node was deleted still adds the children and their edges. Each last-of-name child names the absent node as parent, so it is not a root. |
| `ToggleProofs.OrphanBatchLinks` | components/MindMap.js:63-74 | Under a parent that is neither present nor one of the new ids, a batch links nothing: each new id lists no children, and every other node keeps its list. |
| `ToggleProofs.LateReplyUnlisted` | components/MindMap.js:292-312 | When the late batch's ids are new to a forest, no node lists any of them, so the orphans cannot be reached from any root. |
| `ToggleProofs.InheritedKeyPress` | components/MindMap.js:292-312 | With the as-written table's reply for "constructor", a press only marks the node expanded and keeps its description: no child and no edge is added. The corrected table adds the four finance entries. |
| `ToggleProofs.FirstRootAppend` | components/MindMap.js:112 | Appending a parentless node to the insertion order changes the first root only when there was none. |
| `ToggleProofs.InitializeKeepsFirstRoot` | components/MindMap.js:207-223 | A second `initialize` under a new id keeps the laid-out root. The new node is laid out only when the store had no root. |
| `ToggleProofs.FirstRootIn` | components/MindMap.js:112 | The `find(n => !n.parentId)` over the id list: a result is a parentless node of the list, and no result means the list has none. |
| `ToggleProofs.FirstRootFromIn` | components/MindMap.js:112 | The layout's position-based search and the list-based one find the same node. |
| `ToggleProofs.FirstRootInFilter` | components/MindMap.js:112 | Dropping only non-root entries from the list does not change the first root. |
| `ToggleProofs.FirstRootInSurvives` | components/MindMap.js:112 | When roots can only disappear, a first root that is still a root stays the first. |
| `ToggleProofs.CollapseFirstRoot` | components/MindMap.js:83-112 | After a collapse, layout starts from the first node of the old insertion order that is still parentless. Collapsing a node outside the laid-out root's subtree keeps that root. |

## Left out

- Rendering (`renderNode`, `renderEdge`, the JSX and styles) is presentation only. The edge curve uses a floating-point factor.
- `createPressHandler` is event glue: timers and `window` listeners.
- React scheduling is not modelled.
  - Each transition is modelled as the sequential application of its queued updaters, in order.
  - The effect that re-runs `layout` on a copy whenever `edges` changes is not modelled as a trigger. In the code, a transition that adds no edge, such as a reply without a list, is therefore not re-laid out.
  - The `initialize('Finance')` effect (components/MindMap.js:225-227) is not modelled as a trigger. It is not a one-off start-up call. It depends on `initialize`, which is rebuilt whenever `addNode` is (:223), and `addNode` is rebuilt whenever `nextId` is (:81), which happens on every change of the node map (:45). Each run ends by adding a node, so the effect runs again after every node-map change. Each run adds one more parentless "Finance-N" node and, online, makes one more remote request; the loop has no end. Each single run is `Expansion.Initialize`.
  - Replayed updaters are not modelled either. `addNode` pushes onto the parent's `childIds` array in place, so a replay would push twice.
- The remote model call, the JSON parsing of its output, the environment variable and the API client are inputs. They are summarised as `ApiOutcome` and the `hasClient` flag.
- `server.js` (an HTTP relay) and `App.js` (a wrapper) are outside the core.
- `MindMapService.ToLowerAscii`: lowers ASCII letters only. JavaScript's `toLowerCase` also lowers other scripts, but only ASCII matters for the two table keys and for the inherited keys.
- Reply entries are modelled as a name string and a description string; a missing description is the empty string. Other shapes are not modelled. In the code, a `null` or `undefined` entry makes the `map` that builds the batch throw before any child is added (components/MindMap.js:307-311). A name that is `null` or missing, including the missing name of a number or string entry, makes `measureWidth` throw inside `addNode`, part-way through the batch, after the earlier children were added (components/MindMap.js:39, 312). A name of another type does not throw: a number or boolean gets a `NaN` width, and an array is measured by its length. A description of another type is stored as it is.
- A rejected `generateMindMap` is the input `Fetch.Failed`; its cause is not modelled. `initialize` never reaches its `catch`: its subject comes from the text input or is the literal "Finance", so it is a string. The long press can reach its `catch` (components/MindMap.js:313-315): a child whose reply name was a number, boolean or array passes that non-string label to `generateMindMap`, which rejects at `toLowerCase`. Offline this happens at once, and online after a remote error. The store is then left unchanged. Reply names are modelled as strings, so the model keeps `Fetch.Failed` as a free input rather than deriving it.
- `MindMapService.GenerateMindMap`: answers from the corrected table lookup, so for "constructor" and "__proto__" it gives the finance reply where the code gives the inherited value. `MindMapService.GenerateMindMapAsWritten` is the code as written and differs from it in exactly that case.
- `MindMapService.DemoIsSticky`: its replies are stated against the corrected lookup. The flag part holds for the code as written too, since `GenerateMindMapAsWritten` moves to the same state.
- `MindMapService.ErrorSwitchesToDemo`: the same as `DemoIsSticky`. It also holds only for calls that start after the failing one has settled. Calls that overlap it are not covered, because nothing serialises calls; `MindMapService.OverlapNotSticky` shows a second call in flight that still answers from the remote model.
- `MindMapService.Calls`: models calls that do not overlap. Two calls in flight at once are modelled separately by `MindMapService.Overlapped`; longer interleavings are not modelled.
- `NodeStore.AddNode`: a falsy parent id is modelled as `None`. Ids built by `nextId` always contain a dash, so no real id is the empty string.
- `Layout.Layout` and the other recursive walks require a ranking. On a cyclic `childIds` graph the JavaScript recursion would exhaust the stack. Every transition is proved to keep a ranking, so this case does not arise.
- `BOTTOM_PAD` is declared but never used.

## Findings

| source | as written | input that shows it | evidently intended | confidence | as-written member | corrected member |
|---|---|---|---|---|---|---|
| services/mindmap.js:78 | `demoResponses[normalizedSubject] \|\| demoResponses.finance` indexes a plain object, so keys inherited from `Object.prototype` are found too | subject "constructor" (also "__proto__"): the lookup returns a function (or the prototype), which is truthy but has neither a description nor a subcategory array; the long press then marks the node expanded and adds no children | only the table's own keys are looked up, and every other subject falls back to the finance reply | not executed | `MindMapService.DemoLookupAsWritten` and `MindMapService.GenerateMindMapAsWritten`, exhibited by `MindMapService.InheritedKeyLookup` and `ToggleProofs.InheritedKeyPress` | `MindMapService.DemoLookup` |

=== FILE: base36.dfy ===
/** Radix-36 numerals as produced by JavaScript's `Number.prototype.toString(36)`
    for non-negative integers: digits `0-9a-z`, most significant first, no
    leading zeros. */
module Base36 {

  predicate IsDigit(c: char) {
    '0' <= c <= '9' || 'a' <= c <= 'z'
  }

  predicate IsNumeral(s: string) {
    |s| >= 1 && forall i :: 0 <= i < |s| ==> IsDigit(s[i])
  }

  /** A numeral without a superfluous leading zero. */
  predicate IsCanonical(s: string) {
    IsNumeral(s) && (|s| == 1 || s[0] != '0')
  }

  function DigitValue(c: char): (d: nat)
    requires IsDigit(c)
    ensures d < 36
    ensures d == 0 <==> c == '0'
  {
    if c <= '9' then c as int - '0' as int else c as int - 'a' as int + 10
  }

  function DigitChar(d: nat): (c: char)
    requires d < 36
    ensures IsDigit(c) && DigitValue(c) == d
  {
    if d < 10 then ('0' as int + d) as char else ('a' as int + (d - 10)) as char
  }

  lemma DigitCharValue(c: char)
    requires IsDigit(c)
    ensures DigitChar(DigitValue(c)) == c
  {
  }

  /** `n.toString(36)`. */
  function Encode(n: nat): (s: string)
    ensures IsCanonical(s)
    ensures n > 0 ==> s[0] != '0'
    decreases n
  {
    if n < 36 then [DigitChar(n)] else Encode(n / 36) + [DigitChar(n % 36)]
  }

  /** The value of a numeral (`parseInt(s, 36)` on lower-case digits). */
  function Decode(s: string): (n: nat)
    requires IsNumeral(s)
    decreases |s|
  {
    if |s| == 1 then DigitValue(s[0])
    else Decode(s[..|s| - 1]) * 36 + DigitValue(s[|s| - 1])
  }

  /** Decoding undoes encoding. */
  lemma {:induction false} DecodeEncode(n: nat)
    ensures Decode(Encode(n)) == n
    decreases n
  {
    if n >= 36 {
      var s := Encode(n);
      DecodeEncode(n / 36);
      assert s[..|s| - 1] == Encode(n / 36);
    }
  }

  /** A numeral whose leading digit is not zero denotes a positive number. */
  lemma {:induction false} DecodePositive(s: string)
    requires IsNumeral(s) && s[0] != '0'
    ensures Decode(s) >= 1
    decreases |s|
  {
    if |s| > 1 {
      DecodePositive(s[..|s| - 1]);
    }
  }

  /** Encoding undoes decoding on canonical numerals. */
  lemma {:induction false} EncodeDecode(s: string)
    requires IsCanonical(s)
    ensures Encode(Decode(s)) == s
    decreases |s|
  {
    if |s| == 1 {
      DigitCharValue(s[0]);
    } else {
      var init := s[..|s| - 1];
      DecodePositive(init);
      EncodeDecode(init);
      DigitCharValue(s[|s| - 1]);
      var n := Decode(s);
      assert n / 36 == Decode(init) && n % 36 == DigitValue(s[|s| - 1]);
      assert s == init + [s[|s| - 1]];
    }
  }
}

=== FILE: basics.dfy ===
/** Shared vocabulary: optional values, integer maximum and minimum, and an
    order-preserving sequence filter (the model of JavaScript's
    `Array.prototype.filter`). */
module Basics {

  /** A value that may be absent, standing for JavaScript's `null`/`undefined`. */
  datatype Option<T> = None | Some(value: T)

  function Max(a: int, b: int): (r: int)
    ensures r >= a && r >= b
    ensures r == a || r == b
  {
    if a >= b then a else b
  }

  function Min(a: int, b: int): (r: int)
    ensures r <= a && r <= b
    ensures r == a || r == b
  {
    if a <= b then a else b
  }

  /** No element occurs twice. */
  ghost predicate Distinct<T>(s: seq<T>) {
    forall i, j :: 0 <= i < j < |s| ==> s[i] != s[j]
  }

  lemma ConcatAssoc<T>(a: seq<T>, b: seq<T>, c: seq<T>)
    ensures a + b + c == a + (b + c)
  {
  }

  /** Cutting a sequence at `i` and rejoining it gives it back; the suffix
      starts with `s[i]`, followed by the suffix from `i + 1`. */
  lemma SplitAt<T>(s: seq<T>, i: nat)
    requires i < |s|
    ensures s[..i] + s[i..] == s
    ensures s[i..][0] == s[i] && s[i..][1..] == s[i + 1..]
  {
  }

  /** The elements of `s` that satisfy `keep`, in their original order. */
  function Filter<T(!new)>(s: seq<T>, keep: T -> bool): (r: seq<T>)
    ensures |r| <= |s|
    ensures forall x :: x in r <==> x in s && keep(x)
  {
    if s == [] then []
    else (if keep(s[0]) then [s[0]] else []) + Filter(s[1..], keep)
  }

  /** Filtering distributes over concatenation, so the survivors keep their
      relative order. */
  lemma {:induction false} FilterConcat<T(!new)>(a: seq<T>, b: seq<T>, keep: T -> bool)
    ensures Filter(a + b, keep) == Filter(a, keep) + Filter(b, keep)
  {
    if a == [] {
      assert a + b == b;
    } else {
      assert (a + b)[1..] == a[1..] + b;
      FilterConcat(a[1..], b, keep);
    }
  }

  /** Filtering a sequence without repetitions gives one without repetitions. */
  lemma {:induction false} FilterDistinct<T(!new)>(s: seq<T>, keep: T -> bool)
    requires Distinct(s)
    ensures Distinct(Filter(s, keep))
  {
    if s != [] {
      FilterDistinct(s[1..], keep);
      var rest := Filter(s[1..], keep);
      assert s[0] !in s[1..];
      assert s[0] !in rest;
    }
  }
}

=== FILE: expansion.dfy ===
/** The store transitions behind the buttons and the long press of
    components/MindMap.js: `initialize(subject)` adds a root, and
    `handleLongPress` either collapses a node (deleting it with its subtree)
    or expands it with the subcategories of a reply. The reply arrives after
    an `await`, so the store it is applied to may differ from the one the
    press saw; the press is modelled by the pressed node as it was seen
    (`pressed`), the store size its `nextId` captured (`base`) and the store
    the updates finally apply to. */
module Expansion {
  import opened Basics
  import opened Ids
  import opened Geometry
  import opened NodeStore
  import opened Tree
  import opened MindMapService

  /** What the `await generateMindMap(...)` in the handler produced. */
  datatype Fetch = Fetched(reply: Reply) | Failed

  /** The description shown after a successful initialisation failed. */
  const LoadFailed: string := "Loading description failed. Please try again."

  // ---------------------------------------------------------------------
  // The node updates of the handler.
  // ---------------------------------------------------------------------

  /** The expand updater: when the node is still there, sets `expanded` and
      replaces the description unless the reply's is empty. */
  function MarkExpanded(s: Store, id: Id, description: string): (r: Store)
    ensures r.order == s.order && r.edges == s.edges && r.nodes.Keys == s.nodes.Keys
    ensures forall k :: k in s.nodes && k != id ==> r.nodes[k] == s.nodes[k]
    ensures id in s.nodes ==> r.nodes[id] == s.nodes[id].(
      expanded := true,
      description := if description == "" then s.nodes[id].description else description)
    ensures id !in s.nodes ==> r == s
    ensures Valid(s) ==> Valid(r)
  {
    if id in s.nodes then
      var n := s.nodes[id];
      s.(nodes := s.nodes[id := n.(description := if description != "" then description else n.description, expanded := true)])
    else s
  }

  /** The collapse branch's second updater: clears `expanded` on a node that
      is still there. */
  function SetCollapsed(s: Store, id: Id): (r: Store)
    ensures r.order == s.order && r.edges == s.edges && r.nodes.Keys == s.nodes.Keys
    ensures forall k :: k in s.nodes && k != id ==> r.nodes[k] == s.nodes[k]
    ensures id in s.nodes ==> r.nodes[id] == s.nodes[id].(expanded := false)
    ensures id !in s.nodes ==> r == s
  {
    if id in s.nodes then s.(nodes := s.nodes[id := s.nodes[id].(expanded := false)]) else s
  }

  /** The ids `nextId` gives a batch of children: all from the same captured
      size, so they differ only by name. */
  function BatchIds(items: seq<Subcategory>, base: nat): (ids: seq<Id>)
    ensures |ids| == |items|
    ensures forall i :: 0 <= i < |items| ==> ids[i] == NextId(items[i].name, base)
  {
    if items == [] then [] else [NextId(items[0].name, base)] + BatchIds(items[1..], base)
  }

  /** The edges a batch appends, one from the parent to each child id. */
  function BatchEdges(parent: Id, items: seq<Subcategory>, base: nat): (es: seq<Edge>)
    ensures |es| == |items|
    ensures forall i :: 0 <= i < |items| ==> es[i] == Edge(parent, NextId(items[i].name, base))
  {
    if items == [] then [] else [Edge(parent, NextId(items[0].name, base))] + BatchEdges(parent, items[1..], base)
  }

  /** No later entry of the batch has the same name as entry `i`. */
  ghost predicate LastOfName(items: seq<Subcategory>, i: nat)
    requires i < |items|
  {
    forall j :: i < j < |items| ==> items[j].name != items[i].name
  }

  /** `newNodes.forEach(addNode)` with every call using the captured size
      `base`: one child per subcategory, in reply order. */
  function AddChildren(s: Store, items: seq<Subcategory>, parent: Id, base: nat): (r: Store)
    ensures forall k :: k in r.nodes <==> k in s.nodes || k in BatchIds(items, base)
    ensures r.edges == s.edges + BatchEdges(parent, items, base)
    decreases |items|
  {
    if items == [] then s
    else
      var s1 := AddNode(s, items[0].name, items[0].description, Some(parent), base);
      BatchCons(items, parent, base);
      ConcatAssoc(s.edges, [Edge(parent, NextId(items[0].name, base))], BatchEdges(parent, items[1..], base));
      AddChildren(s1, items[1..], parent, base)
  }

  /** The batch of a non-empty list is its first entry's id (and edge)
      followed by the rest's. */
  lemma BatchCons(items: seq<Subcategory>, parent: Id, base: nat)
    requires items != []
    ensures BatchIds(items, base) == [NextId(items[0].name, base)] + BatchIds(items[1..], base)
    ensures forall k :: k in BatchIds(items, base) <==> k == NextId(items[0].name, base) || k in BatchIds(items[1..], base)
    ensures BatchEdges(parent, items, base) == [Edge(parent, NextId(items[0].name, base))] + BatchEdges(parent, items[1..], base)
  {
  }

  /** A batch keeps the store's bookkeeping consistent. */
  lemma {:induction false} BatchKeepsValid(s: Store, items: seq<Subcategory>, parent: Id, base: nat)
    ensures Valid(s) ==> Valid(AddChildren(s, items, parent, base))
    decreases |items|
  {
    if items != [] {
      BatchKeepsValid(AddNode(s, items[0].name, items[0].description, Some(parent), base), items[1..], parent, base);
    }
  }

  /** A batch leaves every node other than the parent and the new ids alone. */
  lemma {:induction false} BatchFrame(s: Store, items: seq<Subcategory>, parent: Id, base: nat, k: Id)
    requires k in s.nodes && k != parent && k !in BatchIds(items, base)
    ensures k in AddChildren(s, items, parent, base).nodes
    ensures AddChildren(s, items, parent, base).nodes[k] == s.nodes[k]
    decreases |items|
  {
    if items != [] {
      var s1 := AddNode(s, items[0].name, items[0].description, Some(parent), base);
      assert BatchIds(items, base) == [NextId(items[0].name, base)] + BatchIds(items[1..], base);
      BatchFrame(s1, items[1..], parent, base, k);
    }
  }

  /** A present parent that is not itself one of the new ids gains the batch's
      ids, in reply order (repeats included), after its old children. */
  lemma {:induction false} BatchParent(s: Store, items: seq<Subcategory>, parent: Id, base: nat)
    requires parent in s.nodes && parent !in BatchIds(items, base)
    ensures parent in AddChildren(s, items, parent, base).nodes
    ensures AddChildren(s, items, parent, base).nodes[parent]
      == s.nodes[parent].(childIds := s.nodes[parent].childIds + BatchIds(items, base))
    decreases |items|
  {
    if items == [] {
      assert s.nodes[parent].childIds + [] == s.nodes[parent].childIds;
    } else {
      var id := NextId(items[0].name, base);
      var rest := BatchIds(items[1..], base);
      var n := s.nodes[parent];
      var s1 := AddNode(s, items[0].name, items[0].description, Some(parent), base);
      assert BatchIds(items, base) == [id] + rest;
      assert parent != id && parent !in rest;
      var n1 := s1.nodes[parent];
      assert n1 == n.(childIds := n.childIds + [id]);
      BatchParent(s1, items[1..], parent, base);
      var r := AddChildren(s1, items[1..], parent, base);
      assert AddChildren(s, items, parent, base) == r;
      assert r.nodes[parent] == n1.(childIds := n1.childIds + rest);
      assert n1.childIds == n.childIds + [id];
      ConcatAssoc(n.childIds, [id], rest);
    }
  }

  /** A batch applied in two parts is the batch applied at once. */
  lemma {:induction false} BatchSplit(s: Store, a: seq<Subcategory>, b: seq<Subcategory>, parent: Id, base: nat)
    ensures AddChildren(s, a + b, parent, base) == AddChildren(AddChildren(s, a, parent, base), b, parent, base)
    decreases |a|
  {
    if a == [] {
      assert a + b == b;
    } else {
      var s1 := AddNode(s, a[0].name, a[0].description, Some(parent), base);
      assert (a + b)[0] == a[0] && (a + b)[1..] == a[1..] + b;
      BatchSplit(s1, a[1..], b, parent, base);
    }
  }

  /** The child made for the last entry of each name is a fresh node under
      `parent` (an earlier entry of the same name is overwritten by it). */
  lemma BatchChildFresh(s: Store, items: seq<Subcategory>, parent: Id, base: nat, i: nat)
    requires i < |items| && LastOfName(items, i) && NextId(items[i].name, base) != parent
    ensures NextId(items[i].name, base) in AddChildren(s, items, parent, base).nodes
    ensures AddChildren(s, items, parent, base).nodes[NextId(items[i].name, base)]
      == FreshNode(NextId(items[i].name, base), items[i].name, items[i].description, Some(parent))
  {
    var id := NextId(items[i].name, base);
    var s1 := BatchAround(s, items, parent, base, i);
    LaterIdsDiffer(items, base, i);
    BatchFrame(s1, items[i + 1..], parent, base, id);
  }

  /** A batch is the part before entry `i`, then entry `i`, then the rest;
      `mid` is the store right after entry `i`. */
  lemma BatchAround(s: Store, items: seq<Subcategory>, parent: Id, base: nat, i: nat) returns (mid: Store)
    requires i < |items|
    ensures mid == AddNode(AddChildren(s, items[..i], parent, base), items[i].name, items[i].description, Some(parent), base)
    ensures AddChildren(s, items, parent, base) == AddChildren(mid, items[i + 1..], parent, base)
  {
    var pre := AddChildren(s, items[..i], parent, base);
    mid := AddNode(pre, items[i].name, items[i].description, Some(parent), base);
    SplitAt(items, i);
    BatchSplit(s, items[..i], items[i..], parent, base);
    BatchUnfold(pre, items[i..], parent, base);
  }

  /** A non-empty batch is its first entry's `addNode` followed by the rest. */
  lemma BatchUnfold(s: Store, items: seq<Subcategory>, parent: Id, base: nat)
    requires items != []
    ensures AddChildren(s, items, parent, base)
      == AddChildren(AddNode(s, items[0].name, items[0].description, Some(parent), base), items[1..], parent, base)
  {
  }

  /** When no later entry shares entry `i`'s name, no later id equals its id. */
  lemma LaterIdsDiffer(items: seq<Subcategory>, base: nat, i: nat)
    requires i < |items| && LastOfName(items, i)
    ensures NextId(items[i].name, base) !in BatchIds(items[i + 1..], base)
  {
    var later := BatchIds(items[i + 1..], base);
    forall j | 0 <= j < |later|
      ensures later[j] != NextId(items[i].name, base)
    {
      assert items[i + 1..][j] == items[i + 1 + j];
      NextIdCollision(items[i + 1 + j].name, base, items[i].name, base);
    }
  }


  // ---------------------------------------------------------------------
  // The handler and the initialiser.
  // ---------------------------------------------------------------------

  /** The state effect of `handleLongPress` for the node `pressed` as it was
      rendered. If it was shown expanded, its subtree (itself included) is
      removed and the follow-up `expanded = false` update finds nothing. If
      not, a failed fetch changes nothing; a reply marks the node (when still
      there) and, when its subcategories form a list, adds one child each
      under `pressed.id`, whether or not that node still exists. */
  function LongPress(s: Store, pressed: Node, outcome: Fetch, base: nat, ghost rank: map<Id, nat>): (r: Store)
    requires Ranked(s.nodes, rank)
    ensures pressed.expanded ==> r == RemoveSubtree(s, pressed.id, rank)
    ensures pressed.expanded ==>
      && r.nodes.Keys == s.nodes.Keys - Desc(s.nodes, pressed.id, rank)
      && pressed.id !in r.nodes
      && forall e :: e in r.edges <==> e in s.edges && e.from != pressed.id && e.to != pressed.id
    ensures !pressed.expanded && outcome.Failed? ==> r == s
    ensures !pressed.expanded && outcome.Fetched? && outcome.reply.subcategories.NotAList? ==>
      r == MarkExpanded(s, pressed.id, outcome.reply.description)
    ensures !pressed.expanded && outcome.Fetched? && outcome.reply.subcategories.Items? ==>
      r.edges == s.edges + BatchEdges(pressed.id, outcome.reply.subcategories.items, base)
    ensures Valid(s) ==> Valid(r)
  {
    if pressed.expanded then
      SetCollapsed(RemoveSubtree(s, pressed.id, rank), pressed.id)
    else match outcome
      case Failed => s
      case Fetched(reply) =>
        var marked := MarkExpanded(s, pressed.id, reply.description);
        match reply.subcategories
        case NotAList => marked
        case Items(items) =>
          BatchKeepsValid(marked, items, pressed.id, base);
          AddChildren(marked, items, pressed.id, base)
  }

  /** `initialize(subject)`: one more parentless node labelled `subject`,
      whatever the store held before, described by the reply or, if the
      awaited call failed, by the fixed failure text. */
  function Initialize(s: Store, subject: string, outcome: Fetch, size: nat): (r: Store)
    ensures r.nodes.Keys == s.nodes.Keys + {NextId(subject, size)}
    ensures r.nodes[NextId(subject, size)] == FreshNode(NextId(subject, size), subject,
      if outcome.Fetched? then outcome.reply.description else LoadFailed, None)
    ensures forall k :: k in s.nodes && k != NextId(subject, size) ==> r.nodes[k] == s.nodes[k]
    ensures r.edges == s.edges
    ensures Valid(s) ==> Valid(r)
  {
    match outcome
    case Fetched(reply) => AddNode(s, subject, reply.description, None, size)
    case Failed => AddNode(s, subject, LoadFailed, None, size)
  }
}

=== FILE: geometry.dfy ===
/** Layout constants and the label-width rule of components/MindMap.js.
    Every constant is an integer and every band is a multiple of `LeafGap`
    (an even number), so all coordinates the layout produces are integers. */
module Geometry {
  import opened Basics

  /** x of the root column. */
  const BaseX: int := 140
  /** Horizontal distance between two levels. */
  const XStep: int := 240
  /** Vertical space allotted to one leaf. */
  const LeafGap: int := 96
  /** Where the root's band starts. */
  const TopPad: int := 60
  /** Height of a root box. */
  const RootH: int := 48
  /** Height of every other box. */
  const H: int := 42

  /** `text.length`: the number of UTF-16 code units, two for a character
      outside the Basic Multilingual Plane (a surrogate pair). */
  function Utf16Length(text: string): (n: nat)
    ensures |text| <= n <= 2 * |text|
    ensures (forall i :: 0 <= i < |text| ==> text[i] as int < 0x1_0000) ==> n == |text|
  {
    if text == [] then 0
    else (if text[0] as int >= 0x1_0000 then 2 else 1) + Utf16Length(text[1..])
  }

  /** Code units add up over concatenation. */
  lemma {:induction false} Utf16Concat(a: string, b: string)
    ensures Utf16Length(a + b) == Utf16Length(a) + Utf16Length(b)
    decreases |a|
  {
    if a != [] {
      assert (a + b)[0] == a[0] && (a + b)[1..] == a[1..] + b;
      Utf16Concat(a[1..], b);
    } else {
      assert a + b == b;
    }
  }

  /** `max(140, min(260, 28 + max(10, text.length) * 8))`: the box width for
      a label, measured in UTF-16 code units. */
  function MeasureWidth(text: string): (w: int)
    ensures 140 <= w <= 260
    ensures Utf16Length(text) <= 14 ==> w == 140
    ensures Utf16Length(text) >= 29 ==> w == 260
    ensures 14 <= Utf16Length(text) <= 29 ==> w == 28 + 8 * Utf16Length(text)
  {
    Max(140, Min(260, 28 + Max(10, Utf16Length(text)) * 8))
  }

  /** A label with more code units never gets a narrower box. */
  lemma MeasureWidthMonotone(a: string, b: string)
    requires Utf16Length(a) <= Utf16Length(b)
    ensures MeasureWidth(a) <= MeasureWidth(b)
  {
  }

  /** Extending a label never narrows its box. */
  lemma MeasureWidthExtend(a: string, b: string)
    ensures MeasureWidth(a) <= MeasureWidth(a + b)
  {
    Utf16Concat(a, b);
  }
}

=== FILE: ids.dfy ===
/** Node identifiers (components/MindMap.js `nextId`): the label, a dash, and
    the store size plus one in radix 36. The size is the size of the store
    the caller captured, so the same label at the same size always gives
    the same id. */
module Ids {
  import opened Basics
  import opened Base36

  type Id = string

  /** `${name}-${(size + 1).toString(36)}`: the name, a dash, and a
      canonical radix-36 numeral worth `size + 1`. */
  function NextId(name: string, size: nat): (id: Id)
    ensures |id| >= |name| + 2 && id[..|name|] == name && id[|name|] == '-'
    ensures IsCanonical(id[|name| + 1..]) && Decode(id[|name| + 1..]) == size + 1
  {
    var digits := Encode(size + 1);
    DecodeEncode(size + 1);
    assert (name + "-" + digits)[|name| + 1..] == digits;
    name + "-" + digits
  }

  /** The two parts an id is built from. */
  datatype IdParts = IdParts(name: string, serial: nat)

  /** Position of the last dash in `s`, if any. */
  function LastDash(s: string): (r: Option<nat>)
    ensures r.Some? ==> r.value < |s| && s[r.value] == '-'
    ensures r.Some? ==> forall j :: r.value < j < |s| ==> s[j] != '-'
    ensures r.None? ==> forall j :: 0 <= j < |s| ==> s[j] != '-'
    decreases |s|
  {
    if s == [] then None
    else if s[|s| - 1] == '-' then Some(|s| - 1)
    else LastDash(s[..|s| - 1])
  }

  /** Splits an id at its last dash into the name and the serial number;
      `None` when the text after the last dash is not a canonical numeral. */
  function ParseId(id: Id): (r: Option<IdParts>)
    ensures r.Some? ==> id == r.value.name + "-" + Encode(r.value.serial)
  {
    match LastDash(id)
    case None => None
    case Some(k) =>
      var digits := id[k + 1..];
      if IsCanonical(digits) then
        EncodeDecode(digits);
        assert id == id[..k] + "-" + digits;
        Some(IdParts(id[..k], Decode(digits)))
      else None
  }

  /** Parsing recovers the name and the serial `size + 1` an id was built
      from. */
  lemma ParseNextId(name: string, size: nat)
    ensures ParseId(NextId(name, size)) == Some(IdParts(name, size + 1))
  {
    var digits := Encode(size + 1);
    var id := NextId(name, size);
    assert id[|name|] == '-';
    assert forall j :: |name| < j < |id| ==> id[j] == digits[j - |name| - 1];
    assert LastDash(id) == Some(|name|);
    assert id[|name| + 1..] == digits;
    assert id[..|name|] == name;
    DecodeEncode(size + 1);
  }

  /** Two ids coincide exactly when they were built from the same name at
      the same store size: ids are unique only as long as the size never
      returns to an earlier value with the same name. */
  lemma NextIdCollision(a: string, n: nat, b: string, m: nat)
    ensures NextId(a, n) == NextId(b, m) <==> a == b && n == m
  {
    ParseNextId(a, n);
    ParseNextId(b, m);
  }
}

=== FILE: layout.dfy ===
/** The layout pass of components/MindMap.js (`layout`, `leafCount`,
    `layoutNode`): a pre-order walk from the first parentless node that gives
    every reached node a vertical band proportional to its leaf count. The
    walk updates one map in place, so the model threads a single map through
    the recursion and every node read comes from the map as updated so far. */
module Layout {
  import opened Basics
  import opened Ids
  import opened Geometry
  import opened NodeStore

  /** A node with its geometry erased: what layout neither reads nor writes. */
  function Unplaced(n: Node): Node {
    n.(level := 0, x := 0, y := 0, w := 0, h := 0)
  }

  /** Two maps that differ at most in geometry. */
  ghost predicate SameShape(a: map<Id, Node>, b: map<Id, Node>) {
    && a.Keys == b.Keys
    && forall k :: k in a ==> Unplaced(a[k]) == Unplaced(b[k])
  }

  /** `leafCount(node)`: 1 for a node without children, otherwise the sum of
      the children's leaf counts, an absent child counting 0. */
  function LeafCount(m: map<Id, Node>, id: Id, ghost rank: map<Id, nat>): (n: nat)
    requires Ranked(m, rank) && id in m
    ensures |m[id].childIds| == 0 ==> n == 1
    ensures |m[id].childIds| > 0 && (forall i :: 0 <= i < |m[id].childIds| ==> m[id].childIds[i] !in m) ==> n == 0
    decreases rank[id] + 1, 0
  {
    if |m[id].childIds| == 0 then 1 else LeafSum(m, m[id].childIds, rank, rank[id])
  }

  /** The leaves under a list of siblings; siblings missing from the map
      count nothing. */
  function LeafSum(m: map<Id, Node>, ids: seq<Id>, ghost rank: map<Id, nat>, ghost bound: nat): (n: nat)
    requires Ranked(m, rank) && RankedBelow(m, ids, rank, bound)
    ensures (forall i :: 0 <= i < |ids| ==> ids[i] !in m) ==> n == 0
    decreases bound, |ids|
  {
    if ids == [] then 0
    else (if ids[0] in m then LeafCount(m, ids[0], rank) else 0) + LeafSum(m, ids[1..], rank, bound)
  }

  /** The height `layoutNode` returns for `id`: `max(1, leaves) * LEAF_GAP`,
      and 0 for an absent id. */
  function Band(m: map<Id, Node>, id: Id, ghost rank: map<Id, nat>): (b: nat)
    requires Ranked(m, rank)
    ensures id in m ==> b >= LeafGap && b % LeafGap == 0
    ensures id !in m ==> b == 0
  {
    if id in m then Max(1, LeafCount(m, id, rank)) * LeafGap else 0
  }

  /** Sum of the bands of a list of siblings. */
  function BandSum(m: map<Id, Node>, ids: seq<Id>, ghost rank: map<Id, nat>, ghost bound: nat): nat
    requires Ranked(m, rank) && RankedBelow(m, ids, rank, bound)
  {
    if ids == [] then 0 else Band(m, ids[0], rank) + BandSum(m, ids[1..], rank, bound)
  }

  /** The geometry `layoutNode` writes for a node at `level` whose band of
      height `band` starts at `topY`. */
  function Place(n: Node, level: int, topY: int, band: int): (p: Node)
    ensures Unplaced(p) == Unplaced(n)
    ensures p.level == level && p.x == BaseX + level * XStep
    ensures p.w == MeasureWidth(n.name) && 140 <= p.w <= 260
    ensures p.h == (if level == 0 then RootH else H)
    ensures band % 2 == 0 ==> p.y - topY == topY + band - p.y
  {
    n.(level := level,
       w := MeasureWidth(n.name),
       h := if level == 0 then RootH else H,
       x := BaseX + level * XStep,
       y := topY + band / 2)
  }

  // ---------------------------------------------------------------------
  // Geometry-only updates change neither the ranking nor any walk.
  // ---------------------------------------------------------------------

  lemma SameShapeRanked(a: map<Id, Node>, b: map<Id, Node>, rank: map<Id, nat>)
    requires SameShape(a, b) && Ranked(a, rank)
    ensures Ranked(b, rank)
  {
    forall k | k in b
      ensures b[k].childIds == a[k].childIds
    {
      assert Unplaced(a[k]).childIds == Unplaced(b[k]).childIds;
    }
  }

  lemma {:induction false} SameShapeDesc(a: map<Id, Node>, b: map<Id, Node>, x: Id, rank: map<Id, nat>)
    requires SameShape(a, b) && Ranked(a, rank)
    ensures Ranked(b, rank)
    ensures Desc(a, x, rank) == Desc(b, x, rank)
    ensures x in a ==> LeafCount(a, x, rank) == LeafCount(b, x, rank)
    ensures Band(a, x, rank) == Band(b, x, rank)
    decreases if x in a then rank[x] + 1 else 0, 0
  {
    SameShapeRanked(a, b, rank);
    if x in a {
      assert Unplaced(a[x]).childIds == Unplaced(b[x]).childIds;
      SameShapeDescAll(a, b, a[x].childIds, rank, rank[x]);
    }
  }

  lemma {:induction false} SameShapeDescAll(a: map<Id, Node>, b: map<Id, Node>, ids: seq<Id>, rank: map<Id, nat>, bound: nat)
    requires SameShape(a, b) && Ranked(a, rank) && RankedBelow(a, ids, rank, bound)
    ensures Ranked(b, rank) && RankedBelow(b, ids, rank, bound)
    ensures DescAll(a, ids, rank, bound) == DescAll(b, ids, rank, bound)
    ensures LeafSum(a, ids, rank, bound) == LeafSum(b, ids, rank, bound)
    ensures BandSum(a, ids, rank, bound) == BandSum(b, ids, rank, bound)
    decreases bound, |ids|
  {
    SameShapeRanked(a, b, rank);
    if ids != [] {
      SameShapeDesc(a, b, ids[0], rank);
      SameShapeDescAll(a, b, ids[1..], rank, bound);
    }
  }

  /** Every descendant listed below a bound ranks below it. */
  lemma DescAllBelow(m: map<Id, Node>, ids: seq<Id>, rank: map<Id, nat>, bound: nat, k: Id)
    requires Ranked(m, rank) && RankedBelow(m, ids, rank, bound)
    requires k in DescAll(m, ids, rank, bound)
    ensures k in m && rank[k] < bound
  {
    DescAllMember(m, ids, rank, bound, k);
    var i :| 0 <= i < |ids| && k in Desc(m, ids[i], rank);
    DescRank(m, ids[i], rank, k);
  }

  /** A node is not among the descendants of its own children. */
  lemma NotBelowItself(m: map<Id, Node>, id: Id, rank: map<Id, nat>)
    requires Ranked(m, rank) && id in m
    ensures id !in DescAll(m, m[id].childIds, rank, rank[id])
  {
    if id in DescAll(m, m[id].childIds, rank, rank[id]) {
      DescAllBelow(m, m[id].childIds, rank, rank[id], id);
    }
  }

  // ---------------------------------------------------------------------
  // The walk.
  // ---------------------------------------------------------------------

  /** `layoutNode(nodeId, level, topY)`: places the node, then its children
      left to right, each child's band starting where the previous one ended;
      returns the updated map and the node's band (0 for an absent id). Only
      the node's descendants change, and only in their geometry. */
  function LayoutNode(m: map<Id, Node>, id: Id, level: int, topY: int, ghost rank: map<Id, nat>): (r: (map<Id, Node>, int))
    requires Ranked(m, rank)
    ensures r.1 == Band(m, id, rank)
    ensures SameShape(m, r.0)
    ensures forall k :: k in m && k !in Desc(m, id, rank) ==> r.0[k] == m[k]
    ensures id in m ==> r.0[id] == Place(m[id], level, topY, Band(m, id, rank))
    decreases if id in m then rank[id] + 1 else 0, 0
  {
    if id !in m then (m, 0)
    else
      var node := m[id];
      var subH := Max(1, LeafCount(m, id, rank)) * LeafGap;
      var placed := m[id := Place(node, level, topY, subH)];
      SameShapeDescAll(m, placed, node.childIds, rank, rank[id]);
      var children := LayoutChildren(placed, node.childIds, level + 1, topY, rank, rank[id]);
      NotBelowItself(m, id, rank);
      (children.0, subH)
  }

  /** `for (const childId of node.childIds) cursor += layoutNode(childId, level, cursor)`:
      returns the updated map and the final cursor. */
  function LayoutChildren(m: map<Id, Node>, ids: seq<Id>, level: int, cursor: int, ghost rank: map<Id, nat>, ghost bound: nat): (r: (map<Id, Node>, int))
    requires Ranked(m, rank) && RankedBelow(m, ids, rank, bound)
    ensures r.1 == cursor + BandSum(m, ids, rank, bound)
    ensures SameShape(m, r.0)
    ensures forall k :: k in m && k !in DescAll(m, ids, rank, bound) ==> r.0[k] == m[k]
    decreases bound, |ids|
  {
    if ids == [] then (m, cursor)
    else
      var first := LayoutNode(m, ids[0], level, cursor, rank);
      SameShapeDescAll(m, first.0, ids[1..], rank, bound);
      LayoutChildren(first.0, ids[1..], level, cursor + first.1, rank, bound)
  }

  /** The node `Array.from(nodes.values()).find(n => !n.parentId)` inspects. */
  predicate IsRoot(m: map<Id, Node>, k: Id) {
    k in m && m[k].parentId.None?
  }

  /** Position in `order` of the first parentless node at or after `from`. */
  function FirstRootFrom(order: seq<Id>, m: map<Id, Node>, from: nat): (r: Option<nat>)
    requires from <= |order|
    ensures r.Some? ==> from <= r.value < |order| && IsRoot(m, order[r.value])
    ensures r.Some? ==> forall j :: from <= j < r.value ==> !IsRoot(m, order[j])
    ensures r.None? ==> forall j :: from <= j < |order| ==> !IsRoot(m, order[j])
    decreases |order| - from
  {
    if from == |order| then None
    else if IsRoot(m, order[from]) then Some(from)
    else FirstRootFrom(order, m, from + 1)
  }

  /** Position in insertion order of the node `layout` starts from. */
  function FirstRoot(s: Store): Option<nat> {
    FirstRootFrom(s.order, s.nodes, 0)
  }

  /** `layout(nodes, edges)` applied to a copy of the store: a no-op when no
      node is parentless; otherwise lays out the first parentless node in
      insertion order at level 0 with its band starting at `TopPad`. Nodes
      outside that root's subtree, the order and the edges are untouched. */
  function Layout(s: Store, ghost rank: map<Id, nat>): (r: Store)
    requires Ranked(s.nodes, rank)
    ensures r.order == s.order && r.edges == s.edges
    ensures SameShape(s.nodes, r.nodes)
    ensures FirstRoot(s).None? ==> r == s
    ensures FirstRoot(s).Some? ==>
      var root := s.order[FirstRoot(s).value];
      && r.nodes[root] == Place(s.nodes[root], 0, TopPad, Band(s.nodes, root, rank))
      && forall k :: k in s.nodes && k !in Desc(s.nodes, root, rank) ==> r.nodes[k] == s.nodes[k]
    ensures Valid(s) ==> Valid(r)
  {
    match FirstRoot(s)
    case None => s
    case Some(i) =>
      var placed := LayoutNode(s.nodes, s.order[i], 0, TopPad, rank).0;
      ShapeKeepsValid(s, placed);
      s.(nodes := placed)
  }

  lemma ShapeKeepsValid(s: Store, nodes: map<Id, Node>)
    requires SameShape(s.nodes, nodes)
    ensures Valid(s) ==> Valid(s.(nodes := nodes))
  {
    forall k | k in nodes
      ensures nodes[k].id == s.nodes[k].id
    {
      assert Unplaced(s.nodes[k]).id == Unplaced(nodes[k]).id;
    }
  }
}

=== FILE: layout_proofs.dfy ===
/** What the layout pass guarantees. On every ranked store: each band is a
    positive multiple of `LeafGap`, the result depends only on the tree shape
    and labels, and a subtree's layout depends only on that subtree. On a
    well-formed tree: the children's bands tile the parent's band in
    `childIds` order, so sibling centres strictly increase, and the layout of
    a parent restricted to a child's subtree is the child's own layout at the
    child's offset. */
module LayoutProofs {
  import opened Basics
  import opened Ids
  import opened Geometry
  import opened NodeStore
  import opened Tree
  import opened Layout

  // ---------------------------------------------------------------------
  // Leaf counts and bands.
  // ---------------------------------------------------------------------

  /** With every listed child present, a node covers at least one leaf and a
      list of present siblings at least one leaf each. */
  lemma {:induction false} LeafCountPositive(m: map<Id, Node>, x: Id, rank: map<Id, nat>)
    requires Ranked(m, rank) && ChildrenPresent(m) && x in m
    ensures LeafCount(m, x, rank) >= 1
    decreases rank[x] + 1, 0
  {
    if |m[x].childIds| > 0 {
      LeafSumAtLeast(m, m[x].childIds, rank, rank[x]);
    }
  }

  lemma {:induction false} LeafSumAtLeast(m: map<Id, Node>, ids: seq<Id>, rank: map<Id, nat>, bound: nat)
    requires Ranked(m, rank) && ChildrenPresent(m) && RankedBelow(m, ids, rank, bound)
    requires forall i :: 0 <= i < |ids| ==> ids[i] in m
    ensures LeafSum(m, ids, rank, bound) >= |ids|
    decreases bound, |ids|
  {
    if ids != [] {
      LeafCountPositive(m, ids[0], rank);
      LeafSumAtLeast(m, ids[1..], rank, bound);
    }
  }

  /** The bands of present siblings add up to `LeafGap` times their leaves. */
  lemma {:induction false} BandSumIsLeaves(m: map<Id, Node>, ids: seq<Id>, rank: map<Id, nat>, bound: nat)
    requires Ranked(m, rank) && ChildrenPresent(m) && RankedBelow(m, ids, rank, bound)
    requires forall i :: 0 <= i < |ids| ==> ids[i] in m
    ensures BandSum(m, ids, rank, bound) == LeafSum(m, ids, rank, bound) * LeafGap
    decreases |ids|
  {
    if ids != [] {
      LeafCountPositive(m, ids[0], rank);
      BandSumIsLeaves(m, ids[1..], rank, bound);
    }
  }

  /** Band tiling: the bands of a parent's children add up to the parent's
      band (when every listed child is present and there is at least one). */
  lemma BandsTile(m: map<Id, Node>, p: Id, rank: map<Id, nat>)
    requires Ranked(m, rank) && ChildrenPresent(m) && p in m && |m[p].childIds| > 0
    ensures BandSum(m, m[p].childIds, rank, rank[p]) == Band(m, p, rank)
  {
    var kids := m[p].childIds;
    BandSumIsLeaves(m, kids, rank, rank[p]);
    LeafCountPositive(m, p, rank);
  }

  /** Band sums split over concatenation. */
  lemma {:induction false} BandSumConcat(m: map<Id, Node>, a: seq<Id>, b: seq<Id>, rank: map<Id, nat>, bound: nat)
    requires Ranked(m, rank) && RankedBelow(m, a + b, rank, bound)
    ensures RankedBelow(m, a, rank, bound) && RankedBelow(m, b, rank, bound)
    ensures BandSum(m, a + b, rank, bound) == BandSum(m, a, rank, bound) + BandSum(m, b, rank, bound)
    decreases |a|
  {
    assert forall i :: 0 <= i < |a| ==> a[i] == (a + b)[i];
    assert forall i :: 0 <= i < |b| ==> b[i] == (a + b)[|a| + i];
    if a != [] {
      assert (a + b)[1..] == a[1..] + b;
      BandSumConcat(m, a[1..], b, rank, bound);
    } else {
      assert a + b == b;
    }
  }

  /** Where the band of the `i`-th sibling starts, relative to the first. */
  function Offset(m: map<Id, Node>, ids: seq<Id>, i: nat, rank: map<Id, nat>, bound: nat): (o: nat)
    requires Ranked(m, rank) && RankedBelow(m, ids, rank, bound) && i <= |ids|
  {
    BandSum(m, ids[..i], rank, bound)
  }

  /** Each sibling's band starts where the previous one's ends. */
  lemma OffsetStep(m: map<Id, Node>, ids: seq<Id>, i: nat, rank: map<Id, nat>, bound: nat)
    requires Ranked(m, rank) && RankedBelow(m, ids, rank, bound) && i < |ids|
    ensures Offset(m, ids, i + 1, rank, bound) == Offset(m, ids, i, rank, bound) + Band(m, ids[i], rank)
  {
    assert ids[..i + 1] == ids[..i] + [ids[i]];
    BandSumConcat(m, ids[..i], [ids[i]], rank, bound);
  }

  /** Offsets never decrease along the sibling list. */
  lemma {:induction false} OffsetMonotone(m: map<Id, Node>, ids: seq<Id>, i: nat, j: nat, rank: map<Id, nat>, bound: nat)
    requires Ranked(m, rank) && RankedBelow(m, ids, rank, bound) && i <= j <= |ids|
    ensures Offset(m, ids, i, rank, bound) <= Offset(m, ids, j, rank, bound)
    decreases j - i
  {
    if i < j {
      OffsetStep(m, ids, j - 1, rank, bound);
      OffsetMonotone(m, ids, i, j - 1, rank, bound);
    }
  }

  // ---------------------------------------------------------------------
  // A subtree's layout depends only on the subtree's shape.
  // ---------------------------------------------------------------------

  lemma PlaceShape(a: Node, b: Node, level: int, topY: int, band: int)
    requires Unplaced(a) == Unplaced(b)
    ensures Place(a, level, topY, band) == Place(b, level, topY, band)
  {
    assert a.id == b.id && a.name == b.name && a.description == b.description;
    assert a.expanded == b.expanded && a.parentId == b.parentId && a.childIds == b.childIds;
  }

  /** The map `layoutNode` hands to its children's walk. */
  function PlaceAt(m: map<Id, Node>, x: Id, level: int, topY: int, rank: map<Id, nat>): map<Id, Node>
    requires Ranked(m, rank) && x in m
  {
    m[x := Place(m[x], level, topY, Band(m, x, rank))]
  }

  /** One step of `layoutNode`: place the node, then walk its children. */
  lemma LayoutNodeUnfold(m: map<Id, Node>, x: Id, level: int, topY: int, rank: map<Id, nat>)
    requires Ranked(m, rank) && x in m
    ensures Ranked(PlaceAt(m, x, level, topY, rank), rank)
    ensures RankedBelow(PlaceAt(m, x, level, topY, rank), m[x].childIds, rank, rank[x])
    ensures DescAll(PlaceAt(m, x, level, topY, rank), m[x].childIds, rank, rank[x]) == DescAll(m, m[x].childIds, rank, rank[x])
    ensures LayoutNode(m, x, level, topY, rank).0
         == LayoutChildren(PlaceAt(m, x, level, topY, rank), m[x].childIds, level + 1, topY, rank, rank[x]).0
  {
    var placed := PlaceAt(m, x, level, topY, rank);
    SameShapeRanked(m, placed, rank);
    SameShapeDescAll(m, placed, m[x].childIds, rank, rank[x]);
  }

  /** One step of the children's walk: lay out the first, then the rest
      from `next`, where the first one's band ends. */
  lemma LayoutChildrenUnfold(m: map<Id, Node>, ids: seq<Id>, level: int, cursor: int, next: int, rank: map<Id, nat>, bound: nat)
    requires Ranked(m, rank) && RankedBelow(m, ids, rank, bound) && ids != []
    requires next == cursor + Band(m, ids[0], rank)
    ensures Ranked(LayoutNode(m, ids[0], level, cursor, rank).0, rank)
    ensures RankedBelow(LayoutNode(m, ids[0], level, cursor, rank).0, ids[1..], rank, bound)
    ensures DescAll(LayoutNode(m, ids[0], level, cursor, rank).0, ids[1..], rank, bound) == DescAll(m, ids[1..], rank, bound)
    ensures LayoutChildren(m, ids, level, cursor, rank, bound).0
         == LayoutChildren(LayoutNode(m, ids[0], level, cursor, rank).0, ids[1..], level, next, rank, bound).0
  {
    var first := LayoutNode(m, ids[0], level, cursor, rank);
    SameShapeRanked(m, first.0, rank);
    SameShapeDescAll(m, first.0, ids[1..], rank, bound);
    CursorCongruence(first.0, ids[1..], level, cursor + first.1, next, rank, bound);
  }

  /** The walk depends on the cursor's value only (a step the solver does
      not take by itself when one side is a sum). */
  lemma CursorCongruence(m: map<Id, Node>, ids: seq<Id>, level: int, c: int, c': int, rank: map<Id, nat>, bound: nat)
    requires Ranked(m, rank) && RankedBelow(m, ids, rank, bound) && c == c'
    ensures LayoutChildren(m, ids, level, c, rank, bound).0 == LayoutChildren(m, ids, level, c', rank, bound).0
  {
  }

  /** Laying out `x` in two maps that differ only in geometry gives the same
      node `k` for every `k` in the subtree of `x`. */
  lemma {:induction false} LayoutShapeOnly(a: map<Id, Node>, b: map<Id, Node>, x: Id, level: int, topY: int, rank: map<Id, nat>, k: Id)
    requires SameShape(a, b) && Ranked(a, rank) && k in Desc(a, x, rank)
    ensures Ranked(b, rank) && k in a && k in b
    ensures LayoutNode(a, x, level, topY, rank).0[k] == LayoutNode(b, x, level, topY, rank).0[k]
    decreases if x in a then rank[x] + 1 else 0, 1
  {
    SameShapeRanked(a, b, rank);
    DescRank(a, x, rank, k);
    if k == x {
      SameShapeDesc(a, b, x, rank);
      PlaceShape(a[x], b[x], level, topY, Band(a, x, rank));
    } else {
      LayoutShapeOnlyBelow(a, b, x, level, topY, rank, k);
    }
  }

  /** The case of `LayoutShapeOnly` for a proper descendant. */
  lemma {:induction false} LayoutShapeOnlyBelow(a: map<Id, Node>, b: map<Id, Node>, x: Id, level: int, topY: int, rank: map<Id, nat>, k: Id)
    requires SameShape(a, b) && Ranked(a, rank) && x in a && k in DescAll(a, a[x].childIds, rank, rank[x])
    ensures Ranked(b, rank) && k in a && k in b
    ensures LayoutNode(a, x, level, topY, rank).0[k] == LayoutNode(b, x, level, topY, rank).0[k]
    decreases rank[x] + 1, 0
  {
    SameShapeRanked(a, b, rank);
    DescAllBelow(a, a[x].childIds, rank, rank[x], k);
    SameShapeDesc(a, b, x, rank);
    PlaceShape(a[x], b[x], level, topY, Band(a, x, rank));
    assert Unplaced(a[x]).childIds == Unplaced(b[x]).childIds;
    LayoutNodeUnfold(a, x, level, topY, rank);
    LayoutNodeUnfold(b, x, level, topY, rank);
    var pa := PlaceAt(a, x, level, topY, rank);
    var pb := PlaceAt(b, x, level, topY, rank);
    assert SameShape(pa, pb);
    LayoutChildrenShapeOnly(pa, pb, a[x].childIds, level + 1, topY, rank, rank[x], k);
  }

  lemma {:induction false} LayoutChildrenShapeOnly(a: map<Id, Node>, b: map<Id, Node>, ids: seq<Id>, level: int, cursor: int, rank: map<Id, nat>, bound: nat, k: Id)
    requires SameShape(a, b) && Ranked(a, rank) && RankedBelow(a, ids, rank, bound)
    requires k in DescAll(a, ids, rank, bound)
    ensures Ranked(b, rank) && RankedBelow(b, ids, rank, bound) && k in a && k in b
    ensures LayoutChildren(a, ids, level, cursor, rank, bound).0[k] == LayoutChildren(b, ids, level, cursor, rank, bound).0[k]
    decreases bound, |ids| + 1
  {
    SameShapeRanked(a, b, rank);
    SameShapeDescAll(a, b, ids, rank, bound);
    DescAllBelow(a, ids, rank, bound, k);
    var rest := ids[1..];
    SameShapeDesc(a, b, ids[0], rank);
    SameShapeDescAll(a, b, rest, rank, bound);
    var next := cursor + Band(a, ids[0], rank);
    LayoutChildrenUnfold(a, ids, level, cursor, next, rank, bound);
    LayoutChildrenUnfold(b, ids, level, cursor, next, rank, bound);
    var fa := LayoutNode(a, ids[0], level, cursor, rank).0;
    var fb := LayoutNode(b, ids[0], level, cursor, rank).0;
    if k in DescAll(a, rest, rank, bound) {
      assert SameShape(fa, fb);
      LayoutChildrenShapeOnly(fa, fb, rest, level, next, rank, bound, k);
    } else {
      LayoutShapeOnly(a, b, ids[0], level, cursor, rank, k);
    }
  }

  /** Layout is a function of the tree shape and labels: two stores that
      differ only in geometry are laid out with the same shape, and
      identically on the subtree of the root the walk starts from. */
  lemma LayoutDeterministic(s: Store, t: Store, rank: map<Id, nat>)
    requires Ranked(s.nodes, rank) && SameShape(s.nodes, t.nodes) && s.order == t.order && s.edges == t.edges
    ensures Ranked(t.nodes, rank)
    ensures FirstRoot(s) == FirstRoot(t)
    ensures SameShape(Layout.Layout(s, rank).nodes, Layout.Layout(t, rank).nodes)
    ensures FirstRoot(s).Some? ==>
      forall k :: k in s.nodes && k in Desc(s.nodes, s.order[FirstRoot(s).value], rank) ==>
        Layout.Layout(s, rank).nodes[k] == Layout.Layout(t, rank).nodes[k]
  {
    SameShapeRanked(s.nodes, t.nodes, rank);
    forall k | true ensures IsRoot(s.nodes, k) == IsRoot(t.nodes, k) {
      if k in s.nodes {
        assert Unplaced(s.nodes[k]).parentId == Unplaced(t.nodes[k]).parentId;
      }
    }
    FirstRootAgree(s.order, s.nodes, t.nodes, 0);
    if FirstRoot(s).Some? {
      var root := s.order[FirstRoot(s).value];
      forall k | k in s.nodes && k in Desc(s.nodes, root, rank)
        ensures LayoutNode(s.nodes, root, 0, TopPad, rank).0[k] == LayoutNode(t.nodes, root, 0, TopPad, rank).0[k]
      {
        LayoutShapeOnly(s.nodes, t.nodes, root, 0, TopPad, rank, k);
      }
    }
  }

  lemma {:induction false} FirstRootAgree(order: seq<Id>, a: map<Id, Node>, b: map<Id, Node>, from: nat)
    requires from <= |order|
    requires forall k :: IsRoot(a, k) == IsRoot(b, k)
    ensures FirstRootFrom(order, a, from) == FirstRootFrom(order, b, from)
    decreases |order| - from
  {
    if from < |order| {
      FirstRootAgree(order, a, b, from + 1);
    }
  }

  // ---------------------------------------------------------------------
  // Sibling subtrees in a well-formed tree.
  // ---------------------------------------------------------------------

  /** The siblings' subtrees are pairwise disjoint. */
  ghost predicate Apart(m: map<Id, Node>, ids: seq<Id>, rank: map<Id, nat>)
    requires Ranked(m, rank)
  {
    forall i, j :: 0 <= i < |ids| && 0 <= j < |ids| && i != j ==> Desc(m, ids[i], rank) !! Desc(m, ids[j], rank)
  }

  /** Dropping the first sibling moves every later offset back by its band. */
  lemma OffsetShift(m: map<Id, Node>, ids: seq<Id>, i: nat, j: nat, rank: map<Id, nat>, bound: nat)
    requires Ranked(m, rank) && RankedBelow(m, ids, rank, bound) && i == j + 1 && i <= |ids|
    ensures RankedBelow(m, ids[1..], rank, bound)
    ensures Offset(m, ids, i, rank, bound) == Band(m, ids[0], rank) + Offset(m, ids[1..], j, rank, bound)
  {
    assert ids[..i] == [ids[0]] + ids[1..][..j];
    BandSumConcat(m, [ids[0]], ids[1..][..j], rank, bound);
    assert [ids[0]][1..] == [];
  }

  /** Geometry-only differences do not move offsets. */
  lemma OffsetShape(a: map<Id, Node>, b: map<Id, Node>, ids: seq<Id>, i: nat, rank: map<Id, nat>, bound: nat)
    requires SameShape(a, b) && Ranked(a, rank) && RankedBelow(a, ids, rank, bound) && i <= |ids|
    ensures Ranked(b, rank) && RankedBelow(b, ids, rank, bound)
    ensures Offset(a, ids, i, rank, bound) == Offset(b, ids, i, rank, bound)
  {
    SameShapeDescAll(a, b, ids, rank, bound);
    SameShapeDescAll(a, b, ids[..i], rank, bound);
  }

  /** Laying out a first sibling keeps the others' subtrees apart. */
  lemma ApartAfterFirst(m: map<Id, Node>, m': map<Id, Node>, ids: seq<Id>, rank: map<Id, nat>)
    requires SameShape(m, m') && Ranked(m, rank) && Apart(m, ids, rank) && |ids| > 0
    ensures Ranked(m', rank) && Apart(m', ids[1..], rank)
  {
    SameShapeRanked(m, m', rank);
    forall a, b | 0 <= a < |ids| - 1 && 0 <= b < |ids| - 1 && a != b
      ensures Desc(m', ids[1..][a], rank) !! Desc(m', ids[1..][b], rank)
    {
      assert ids[1..][a] == ids[a + 1] && ids[1..][b] == ids[b + 1];
      SameShapeDesc(m, m', ids[a + 1], rank);
      SameShapeDesc(m, m', ids[b + 1], rank);
    }
  }

  /** A node in the first sibling's subtree is outside the later siblings'. */
  lemma FirstApart(m: map<Id, Node>, ids: seq<Id>, rank: map<Id, nat>, bound: nat, k: Id)
    requires Ranked(m, rank) && RankedBelow(m, ids, rank, bound) && Apart(m, ids, rank)
    requires |ids| > 0 && k in Desc(m, ids[0], rank)
    ensures RankedBelow(m, ids[1..], rank, bound) && k !in DescAll(m, ids[1..], rank, bound)
  {
    forall j | 0 <= j < |ids| - 1
      ensures k !in Desc(m, ids[1..][j], rank)
    {
      assert ids[1..][j] == ids[j + 1];
    }
    DescAllMember(m, ids[1..], rank, bound, k);
  }

  /** With sibling subtrees apart, the children's walk restricted to the
      subtree of the `i`-th sibling is that sibling's own layout, its band
      starting at `y`, after the bands of the siblings before it. */
  lemma {:induction false} ChildrenSubtree(m: map<Id, Node>, ids: seq<Id>, level: int, cursor: int, rank: map<Id, nat>, bound: nat, i: nat, y: int, k: Id)
    requires Ranked(m, rank) && RankedBelow(m, ids, rank, bound) && Apart(m, ids, rank)
    requires i < |ids| && y == cursor + Offset(m, ids, i, rank, bound) && k in Desc(m, ids[i], rank)
    ensures k in m
    ensures LayoutChildren(m, ids, level, cursor, rank, bound).0[k] == LayoutNode(m, ids[i], level, y, rank).0[k]
    decreases |ids|, 1
  {
    if i == 0 {
      assert ids[..0] == [];
      FirstSubtree(m, ids, level, cursor, rank, bound, y, k);
    } else {
      LaterSubtree(m, ids, level, cursor, rank, bound, i, y, k);
    }
  }

  /** The case of `ChildrenSubtree` for the first sibling: the later
      siblings' walks leave its subtree alone. */
  lemma FirstSubtree(m: map<Id, Node>, ids: seq<Id>, level: int, cursor: int, rank: map<Id, nat>, bound: nat, y: int, k: Id)
    requires Ranked(m, rank) && RankedBelow(m, ids, rank, bound) && Apart(m, ids, rank)
    requires |ids| > 0 && y == cursor && k in Desc(m, ids[0], rank)
    ensures k in m
    ensures LayoutChildren(m, ids, level, cursor, rank, bound).0[k] == LayoutNode(m, ids[0], level, y, rank).0[k]
  {
    DescRank(m, ids[0], rank, k);
    FirstApart(m, ids, rank, bound, k);
    var next := cursor + Band(m, ids[0], rank);
    LayoutChildrenUnfold(m, ids, level, cursor, next, rank, bound);
  }

  /** The case of `ChildrenSubtree` for a later sibling: the first sibling's
      walk only moves the cursor by its band. */
  lemma {:induction false} LaterSubtree(m: map<Id, Node>, ids: seq<Id>, level: int, cursor: int, rank: map<Id, nat>, bound: nat, i: nat, y: int, k: Id)
    requires Ranked(m, rank) && RankedBelow(m, ids, rank, bound) && Apart(m, ids, rank)
    requires 0 < i < |ids| && y == cursor + Offset(m, ids, i, rank, bound) && k in Desc(m, ids[i], rank)
    ensures k in m
    ensures LayoutChildren(m, ids, level, cursor, rank, bound).0[k] == LayoutNode(m, ids[i], level, y, rank).0[k]
    decreases |ids|, 0
  {
    DescRank(m, ids[i], rank, k);
    var next := cursor + Band(m, ids[0], rank);
    var j := i - 1;
    LayoutChildrenUnfold(m, ids, level, cursor, next, rank, bound);
    var first := LayoutNode(m, ids[0], level, cursor, rank).0;
    var rest := ids[1..];
    ApartAfterFirst(m, first, ids, rank);
    assert rest[j] == ids[i];
    SameShapeDesc(m, first, ids[i], rank);
    OffsetShift(m, ids, i, j, rank, bound);
    OffsetShape(m, first, rest, j, rank, bound);
    ChildrenSubtree(first, rest, level, next, rank, bound, j, y, k);
    LayoutShapeOnly(first, m, ids[i], level, y, rank, k);
  }

  /** In a well-formed tree the children's subtrees stay apart after the
      parent is placed. */
  lemma KidsApart(m: map<Id, Node>, p: Id, placed: map<Id, Node>, rank: map<Id, nat>)
    requires WellFormed(m, rank) && p in m && SameShape(m, placed)
    ensures Ranked(placed, rank) && Apart(placed, m[p].childIds, rank)
  {
    var kids := m[p].childIds;
    SameShapeRanked(m, placed, rank);
    forall a, b | 0 <= a < |kids| && 0 <= b < |kids| && a != b
      ensures Desc(placed, kids[a], rank) !! Desc(placed, kids[b], rank)
    {
      SiblingsDisjoint(m, p, rank, a, b);
      SameShapeDesc(m, placed, kids[a], rank);
      SameShapeDesc(m, placed, kids[b], rank);
    }
  }

  /** In a well-formed tree, the layout of a parent restricted to the subtree
      of its `i`-th child is that child's own layout at level + 1, with its
      band starting after the bands of the children before it. */
  lemma LayoutNodeSubtree(m: map<Id, Node>, p: Id, level: int, topY: int, rank: map<Id, nat>, i: nat, y: int, k: Id)
    requires WellFormed(m, rank) && p in m && i < |m[p].childIds|
    requires y == topY + Offset(m, m[p].childIds, i, rank, rank[p])
    requires k in Desc(m, m[p].childIds[i], rank)
    ensures k in m
    ensures LayoutNode(m, p, level, topY, rank).0[k] == LayoutNode(m, m[p].childIds[i], level + 1, y, rank).0[k]
  {
    var kids := m[p].childIds;
    DescRank(m, kids[i], rank, k);
    LayoutNodeUnfold(m, p, level, topY, rank);
    var placed := PlaceAt(m, p, level, topY, rank);
    KidsApart(m, p, placed, rank);
    SameShapeDesc(m, placed, kids[i], rank);
    OffsetShape(m, placed, kids, i, rank, rank[p]);
    ChildrenSubtree(placed, kids, level + 1, topY, rank, rank[p], i, y, k);
    LayoutShapeOnly(placed, m, kids[i], level + 1, y, rank, k);
  }

  /** In a well-formed tree the `i`-th child of a laid-out node sits one level
      deeper, in the band that starts where the previous sibling's ends. */
  lemma ChildPlaced(m: map<Id, Node>, p: Id, level: int, topY: int, rank: map<Id, nat>, i: nat)
    requires WellFormed(m, rank) && p in m && i < |m[p].childIds|
    ensures var c := m[p].childIds[i];
      LayoutNode(m, p, level, topY, rank).0[c]
        == Place(m[c], level + 1, topY + Offset(m, m[p].childIds, i, rank, rank[p]), Band(m, c, rank))
  {
    var c := m[p].childIds[i];
    assert c in Desc(m, c, rank);
    var y := topY + Offset(m, m[p].childIds, i, rank, rank[p]);
    LayoutNodeSubtree(m, p, level, topY, rank, i, y, c);
  }

  /** In a well-formed tree the children's bands tile the parent's band: the
      first starts at the parent's top, each next one where the previous ends,
      the last ends at the parent's bottom; hence sibling centres strictly
      increase in `childIds` order. */
  lemma SiblingsTile(m: map<Id, Node>, p: Id, level: int, topY: int, rank: map<Id, nat>, i: nat, j: nat)
    requires WellFormed(m, rank) && p in m && i < j < |m[p].childIds|
    ensures Offset(m, m[p].childIds, 0, rank, rank[p]) == 0
    ensures Offset(m, m[p].childIds, i + 1, rank, rank[p]) == Offset(m, m[p].childIds, i, rank, rank[p]) + Band(m, m[p].childIds[i], rank)
    ensures Offset(m, m[p].childIds, |m[p].childIds|, rank, rank[p]) == Band(m, p, rank)
    ensures LayoutNode(m, p, level, topY, rank).0[m[p].childIds[i]].y < LayoutNode(m, p, level, topY, rank).0[m[p].childIds[j]].y
  {
    var kids := m[p].childIds;
    assert kids[..0] == [];
    assert kids[..|kids|] == kids;
    BandsTile(m, p, rank);
    OffsetStep(m, kids, i, rank, rank[p]);
    OffsetMonotone(m, kids, i + 1, j, rank, rank[p]);
    ChildPlaced(m, p, level, topY, rank, i);
    ChildPlaced(m, p, level, topY, rank, j);
  }
}

=== FILE: node_store.dfy ===
/** The node store of components/MindMap.js: a JavaScript `Map` from id to
    node (whose insertion order matters), plus a separate list of edges.
    `addNode` and `removeSubtree` are modelled here; the descendant relation
    and the ranking that makes the recursive walks terminate live here too. */
module NodeStore {
  import opened Basics
  import opened Ids
  import opened Geometry

  /** One box of the mind map. `name` is the JavaScript `label`. The geometry
      fields `level`, `x`, `y`, `w`, `h` are rewritten by the layout pass. */
  datatype Node = Node(
    id: Id,
    name: string,
    description: string,
    expanded: bool,
    parentId: Option<Id>,
    childIds: seq<Id>,
    level: int,
    x: int,
    y: int,
    w: int,
    h: int)

  /** A `{from, to}` pair kept beside the nodes for drawing. */
  datatype Edge = Edge(from: Id, to: Id)

  /** `nodes` is the map, `order` its keys in insertion order, `edges` the
      edge list. */
  datatype Store = Store(nodes: map<Id, Node>, order: seq<Id>, edges: seq<Edge>)

  const EmptyStore: Store := Store(map[], [], [])

  /** The insertion order lists every key exactly once, and every node is
      stored under its own id. */
  ghost predicate Valid(s: Store) {
    && Distinct(s.order)
    && (forall k :: k in s.order <==> k in s.nodes)
    && (forall k :: k in s.nodes ==> s.nodes[k].id == k)
  }

  /** The node `addNode` creates, before any layout. */
  function FreshNode(id: Id, name: string, description: string, parentId: Option<Id>): (n: Node)
    ensures n.id == id && n.name == name && n.description == description && n.parentId == parentId
    ensures !n.expanded && n.childIds == []
    ensures n.level == 0 && n.x == BaseX && n.y == 0 && n.h == H
    ensures 140 <= n.w <= 260 && n.w == MeasureWidth(name)
  {
    Node(id, name, description, false, parentId, [], 0, BaseX, 0, MeasureWidth(name), H)
  }

  /** `addNode({label, description, parentId})` with `size` the store size the
      caller's `nextId` captured. When the id is already taken the old node
      is replaced in place (a JavaScript `Map.set` on an existing key keeps
      its position). The edge is appended whenever a parent id is given,
      even when no such node exists. */
  function AddNode(s: Store, name: string, description: string, parentId: Option<Id>, size: nat): (r: Store)
    ensures NextId(name, size) in r.nodes
    ensures r.nodes[NextId(name, size)] == FreshNode(NextId(name, size), name, description, parentId)
    ensures r.nodes.Keys == s.nodes.Keys + {NextId(name, size)}
    ensures forall k :: k in s.nodes && k != NextId(name, size) && parentId != Some(k) ==> r.nodes[k] == s.nodes[k]
    ensures parentId.Some? && parentId.value in s.nodes && parentId.value != NextId(name, size) ==>
      r.nodes[parentId.value] == s.nodes[parentId.value].(childIds := s.nodes[parentId.value].childIds + [NextId(name, size)])
    ensures r.order == if NextId(name, size) in s.nodes then s.order else s.order + [NextId(name, size)]
    ensures r.edges == s.edges + (if parentId.Some? then [Edge(parentId.value, NextId(name, size))] else [])
    ensures Valid(s) ==> Valid(r)
  {
    var id := NextId(name, size);
    var linked := match parentId
      case Some(p) =>
        if p in s.nodes then s.nodes[p := s.nodes[p].(childIds := s.nodes[p].childIds + [id])] else s.nodes
      case None => s.nodes;
    var order := if id in s.nodes then s.order else s.order + [id];
    var edges := if parentId.Some? then s.edges + [Edge(parentId.value, id)] else s.edges;
    var nodes := linked[id := FreshNode(id, name, description, parentId)];
    InsertKeepsValid(s, id, nodes, edges);
    Store(nodes, order, edges)
  }

  /** Storing a node under a new or existing key, with every other node
      keeping its id and the key appended to the order only when new, keeps
      the store's bookkeeping consistent. */
  lemma InsertKeepsValid(s: Store, id: Id, nodes: map<Id, Node>, edges: seq<Edge>)
    requires nodes.Keys == s.nodes.Keys + {id} && nodes[id].id == id
    requires forall k :: k in s.nodes && k != id ==> nodes[k].id == s.nodes[k].id
    ensures Valid(s) ==> Valid(Store(nodes, if id in s.nodes then s.order else s.order + [id], edges))
  {
  }

  // ---------------------------------------------------------------------
  // Ranking: the recursive walks over `childIds` have no cycle protection,
  // so they are modelled on maps that admit a ranking in which every present
  // child ranks below its parent.
  // ---------------------------------------------------------------------

  ghost predicate Ranked(m: map<Id, Node>, rank: map<Id, nat>) {
    && (forall k :: k in m ==> k in rank)
    && (forall k, i :: k in m && 0 <= i < |m[k].childIds| && m[k].childIds[i] in m ==>
          rank[m[k].childIds[i]] < rank[k])
  }

  /** No id can reach itself through `childIds`. */
  ghost predicate Acyclic(m: map<Id, Node>) {
    exists rank :: Ranked(m, rank)
  }

  /** Every id of `ids` present in `m` ranks below `bound`. */
  ghost predicate RankedBelow(m: map<Id, Node>, ids: seq<Id>, rank: map<Id, nat>, bound: nat)
    requires Ranked(m, rank)
  {
    forall i :: 0 <= i < |ids| && ids[i] in m ==> rank[ids[i]] < bound
  }

  /** The node `id` and everything reachable from it through `childIds`
      (empty when `id` is absent). */
  ghost function Desc(m: map<Id, Node>, id: Id, rank: map<Id, nat>): set<Id>
    requires Ranked(m, rank)
    decreases if id in m then rank[id] + 1 else 0, 0
  {
    if id !in m then {} else {id} + DescAll(m, m[id].childIds, rank, rank[id])
  }

  /** The union of `Desc` over a list of ids. */
  ghost function DescAll(m: map<Id, Node>, ids: seq<Id>, rank: map<Id, nat>, bound: nat): set<Id>
    requires Ranked(m, rank) && RankedBelow(m, ids, rank, bound)
    decreases bound, |ids|
  {
    if ids == [] then {} else Desc(m, ids[0], rank) + DescAll(m, ids[1..], rank, bound)
  }

  /** A set closed under taking present children. */
  ghost predicate Closed(m: map<Id, Node>, d: set<Id>) {
    forall k, i :: k in d && k in m && 0 <= i < |m[k].childIds| && m[k].childIds[i] in m ==>
      m[k].childIds[i] in d
  }

  lemma {:induction false} DescAllMember(m: map<Id, Node>, ids: seq<Id>, rank: map<Id, nat>, bound: nat, k: Id)
    requires Ranked(m, rank) && RankedBelow(m, ids, rank, bound)
    ensures k in DescAll(m, ids, rank, bound) <==> exists i :: 0 <= i < |ids| && k in Desc(m, ids[i], rank)
    decreases |ids|
  {
    if ids != [] {
      DescAllMember(m, ids[1..], rank, bound, k);
      if k in DescAll(m, ids[1..], rank, bound) {
        var i :| 0 <= i < |ids[1..]| && k in Desc(m, ids[1..][i], rank);
        assert ids[1..][i] == ids[i + 1];
      }
      if exists i :: 0 <= i < |ids| && k in Desc(m, ids[i], rank) {
        var i :| 0 <= i < |ids| && k in Desc(m, ids[i], rank);
        if i > 0 {
          assert ids[1..][i - 1] == ids[i];
        }
      }
    }
  }

  /** Descendants are present and rank no higher than their ancestor. */
  lemma {:induction false} DescRank(m: map<Id, Node>, x: Id, rank: map<Id, nat>, k: Id)
    requires Ranked(m, rank)
    requires k in Desc(m, x, rank)
    ensures k in m && x in m && rank[k] <= rank[x]
    decreases if x in m then rank[x] + 1 else 0
  {
    if k != x {
      var kids := m[x].childIds;
      DescAllMember(m, kids, rank, rank[x], k);
      var i :| 0 <= i < |kids| && k in Desc(m, kids[i], rank);
      DescRank(m, kids[i], rank, k);
    }
  }

  /** A present child of `x` is a descendant of `x`. */
  lemma ChildInDesc(m: map<Id, Node>, x: Id, rank: map<Id, nat>, i: nat)
    requires Ranked(m, rank) && x in m && i < |m[x].childIds| && m[x].childIds[i] in m
    ensures m[x].childIds[i] in Desc(m, x, rank)
  {
    var kids := m[x].childIds;
    DescAllMember(m, kids, rank, rank[x], kids[i]);
  }

  /** The descendants of a descendant are descendants. */
  lemma {:induction false} DescTransitive(m: map<Id, Node>, x: Id, rank: map<Id, nat>, k: Id)
    requires Ranked(m, rank)
    requires k in Desc(m, x, rank)
    ensures Desc(m, k, rank) <= Desc(m, x, rank)
    decreases if x in m then rank[x] + 1 else 0
  {
    if k != x {
      var kids := m[x].childIds;
      DescAllMember(m, kids, rank, rank[x], k);
      var i :| 0 <= i < |kids| && k in Desc(m, kids[i], rank);
      DescRank(m, kids[i], rank, k);
      DescTransitive(m, kids[i], rank, k);
      forall j | j in Desc(m, kids[i], rank)
        ensures j in Desc(m, x, rank)
      {
        DescAllMember(m, kids, rank, rank[x], j);
      }
    }
  }

  /** The descendant set is closed under taking present children. */
  lemma DescClosed(m: map<Id, Node>, x: Id, rank: map<Id, nat>)
    requires Ranked(m, rank)
    ensures Closed(m, Desc(m, x, rank))
  {
    forall k, i | k in Desc(m, x, rank) && k in m && 0 <= i < |m[k].childIds| && m[k].childIds[i] in m
      ensures m[k].childIds[i] in Desc(m, x, rank)
    {
      ChildInDesc(m, k, rank, i);
      DescTransitive(m, x, rank, k);
    }
  }

  /** A closed set containing `x` contains all descendants of `x`. */
  lemma {:induction false} DescWithinClosed(m: map<Id, Node>, d: set<Id>, x: Id, rank: map<Id, nat>)
    requires Ranked(m, rank) && Closed(m, d) && x in d
    ensures Desc(m, x, rank) <= d
    decreases if x in m then rank[x] + 1 else 0
  {
    if x in m {
      var kids := m[x].childIds;
      forall k | k in DescAll(m, kids, rank, rank[x])
        ensures k in d
      {
        DescAllMember(m, kids, rank, rank[x], k);
        var i :| 0 <= i < |kids| && k in Desc(m, kids[i], rank);
        DescRank(m, kids[i], rank, k);
        DescWithinClosed(m, d, kids[i], rank);
      }
    }
  }

  /** Any submap of a ranked map is ranked by the same ranking. */
  lemma RankedSubmap(m: map<Id, Node>, m': map<Id, Node>, rank: map<Id, nat>)
    requires Ranked(m, rank)
    requires forall k :: k in m' ==> k in m && m'[k] == m[k]
    ensures Ranked(m', rank)
  {
  }

  /** Deleting a closed set `d` removes exactly `d` from every descendant set. */
  lemma {:induction false} DescOfSubmap(m: map<Id, Node>, m': map<Id, Node>, d: set<Id>, x: Id, rank: map<Id, nat>)
    requires Ranked(m, rank) && Closed(m, d)
    requires forall k :: k in m' ==> k in m && m'[k] == m[k]
    requires m'.Keys == m.Keys - d
    ensures Ranked(m', rank)
    ensures Desc(m', x, rank) == Desc(m, x, rank) - d
    decreases if x in m then rank[x] + 1 else 0, 0
  {
    RankedSubmap(m, m', rank);
    if x in d && x in m {
      DescWithinClosed(m, d, x, rank);
    } else if x in m {
      DescAllOfSubmap(m, m', d, m[x].childIds, rank, rank[x]);
    }
  }

  lemma {:induction false} DescAllOfSubmap(m: map<Id, Node>, m': map<Id, Node>, d: set<Id>, ids: seq<Id>, rank: map<Id, nat>, bound: nat)
    requires Ranked(m, rank) && Closed(m, d) && RankedBelow(m, ids, rank, bound)
    requires forall k :: k in m' ==> k in m && m'[k] == m[k]
    requires m'.Keys == m.Keys - d
    ensures Ranked(m', rank) && RankedBelow(m', ids, rank, bound)
    ensures DescAll(m', ids, rank, bound) == DescAll(m, ids, rank, bound) - d
    decreases bound, |ids|
  {
    RankedSubmap(m, m', rank);
    if ids != [] {
      DescOfSubmap(m, m', d, ids[0], rank);
      DescAllOfSubmap(m, m', d, ids[1..], rank, bound);
    }
  }

  /** JavaScript `removeNode`: deletes the children first, in `childIds`
      order, then the node; an absent id is ignored. */
  function RemoveNode(m: map<Id, Node>, id: Id, ghost rank: map<Id, nat>): (r: map<Id, Node>)
    requires Ranked(m, rank)
    ensures r.Keys == m.Keys - Desc(m, id, rank)
    ensures forall k :: k in r ==> r[k] == m[k]
    decreases if id in m then rank[id] + 1 else 0, 0
  {
    if id !in m then m
    else RemoveChildren(m, m[id].childIds, rank, rank[id]) - {id}
  }

  /** `childIds.forEach(removeNode)`, threading the shrinking map. */
  function RemoveChildren(m: map<Id, Node>, ids: seq<Id>, ghost rank: map<Id, nat>, ghost bound: nat): (r: map<Id, Node>)
    requires Ranked(m, rank) && RankedBelow(m, ids, rank, bound)
    ensures r.Keys == m.Keys - DescAll(m, ids, rank, bound)
    ensures forall k :: k in r ==> r[k] == m[k]
    decreases bound, |ids|
  {
    if ids == [] then m
    else
      var m1 := RemoveNode(m, ids[0], rank);
      DescClosed(m, ids[0], rank);
      DescAllOfSubmap(m, m1, Desc(m, ids[0], rank), ids[1..], rank, bound);
      RemoveChildren(m1, ids[1..], rank, bound)
  }

  /** `parent.childIds.filter(id => id !== x)`. */
  function Without(ids: seq<Id>, x: Id): (r: seq<Id>)
    ensures forall y :: y in r <==> y in ids && y != x
  {
    Filter(ids, y => y != x)
  }

  /** The parent id recorded on `id`, if `id` is present. */
  function ParentOf(m: map<Id, Node>, id: Id): Option<Id> {
    if id in m then m[id].parentId else None
  }

  /** Dropping one id from a node's `childIds` keeps a ranking valid. */
  lemma RankedDetach(m: map<Id, Node>, p: Id, x: Id, rank: map<Id, nat>)
    requires Ranked(m, rank) && p in m
    ensures Ranked(m[p := m[p].(childIds := Without(m[p].childIds, x))], rank)
  {
    var m' := m[p := m[p].(childIds := Without(m[p].childIds, x))];
    forall k, i | k in m' && 0 <= i < |m'[k].childIds| && m'[k].childIds[i] in m'
      ensures rank[m'[k].childIds[i]] < rank[k]
    {
      if k == p {
        var c := m'[k].childIds[i];
        assert c in m[p].childIds;
        var j :| 0 <= j < |m[p].childIds| && m[p].childIds[j] == c;
      }
    }
  }

  /** The node-map half of `removeSubtree` (the updater passed to
      `setNodes`). */
  function RemoveFromMap(m: map<Id, Node>, nodeId: Id, ghost rank: map<Id, nat>): (r: map<Id, Node>)
    requires Ranked(m, rank)
    ensures nodeId !in m ==> r == m
    ensures r.Keys == m.Keys - Desc(m, nodeId, rank)
    ensures forall k :: k in r && Some(k) != ParentOf(m, nodeId) ==> r[k] == m[k]
    ensures forall p :: Some(p) == ParentOf(m, nodeId) && p in r ==>
      r[p] == m[p].(childIds := Without(m[p].childIds, nodeId))
    ensures forall k :: k in r ==> r[k].id == m[k].id
    ensures Ranked(r, rank)
  {
    if nodeId !in m then m
    else
      var next := RemoveNode(m, nodeId, rank);
      RankedSubmap(m, next, rank);
      match m[nodeId].parentId
      case Some(p) =>
        if p in next then
          RankedDetach(next, p, nodeId, rank);
          next[p := next[p].(childIds := Without(next[p].childIds, nodeId))]
        else next
      case None => next
  }

  /** `removeSubtree(nodeId)`: when the node is present, deletes it with all
      its descendants and drops its id from the recorded parent's `childIds`
      (if that parent survives). Independently of presence, drops exactly the
      edges that start or end at `nodeId`; edges between deeper descendants
      stay. */
  function RemoveSubtree(s: Store, nodeId: Id, ghost rank: map<Id, nat>): (r: Store)
    requires Ranked(s.nodes, rank)
    ensures nodeId !in s.nodes ==> r.nodes == s.nodes && r.order == s.order
    ensures r.nodes.Keys == s.nodes.Keys - Desc(s.nodes, nodeId, rank)
    ensures nodeId in s.nodes ==> nodeId !in r.nodes && |r.nodes| < |s.nodes|
    ensures forall k :: k in r.nodes && Some(k) != ParentOf(s.nodes, nodeId) ==> r.nodes[k] == s.nodes[k]
    ensures forall p :: Some(p) == ParentOf(s.nodes, nodeId) && p in r.nodes ==>
      r.nodes[p] == s.nodes[p].(childIds := Without(s.nodes[p].childIds, nodeId))
    ensures nodeId in s.nodes ==> r.order == Filter(s.order, k => k in r.nodes)
    ensures r.edges == Filter(s.edges, (e: Edge) => e.from != nodeId && e.to != nodeId)
    ensures forall e :: e in r.edges <==> e in s.edges && e.from != nodeId && e.to != nodeId
    ensures Ranked(r.nodes, rank)
    ensures Valid(s) ==> Valid(r)
  {
    var nodes := RemoveFromMap(s.nodes, nodeId, rank);
    var order := if nodeId in s.nodes then Filter(s.order, k => k in nodes) else s.order;
    RemovalShrinks(s, nodeId, rank, nodes);
    RemovalKeepsValid(s, nodes, order, nodeId in s.nodes);
    Store(nodes, order, Filter(s.edges, (e: Edge) => e.from != nodeId && e.to != nodeId))
  }

  lemma RemovalShrinks(s: Store, nodeId: Id, rank: map<Id, nat>, nodes: map<Id, Node>)
    requires Ranked(s.nodes, rank)
    requires nodes.Keys == s.nodes.Keys - Desc(s.nodes, nodeId, rank)
    ensures nodeId in s.nodes ==> nodeId !in nodes && |nodes| < |s.nodes|
  {
    if nodeId in s.nodes {
      assert nodeId in Desc(s.nodes, nodeId, rank);
      SubsetCardinality(nodes.Keys, s.nodes.Keys - {nodeId});
      assert |nodes| == |nodes.Keys|;
    }
  }

  lemma RemovalKeepsValid(s: Store, nodes: map<Id, Node>, order: seq<Id>, filtered: bool)
    requires nodes.Keys <= s.nodes.Keys
    requires forall k :: k in nodes ==> nodes[k].id == s.nodes[k].id
    requires filtered ==> order == Filter(s.order, k => k in nodes)
    requires !filtered ==> order == s.order && nodes == s.nodes
    ensures Valid(s) ==> Valid(Store(nodes, order, s.edges))
  {
    if Valid(s) && filtered {
      FilterDistinct(s.order, k => k in nodes);
    }
  }

  lemma {:induction false} SubsetCardinality(a: set<Id>, b: set<Id>)
    requires a <= b
    ensures |a| <= |b|
    decreases |a|
  {
    if a != {} {
      var x :| x in a;
      SubsetCardinality(a - {x}, b - {x});
    }
  }
}

=== FILE: service.dfy ===
/** The subject service of services/mindmap.js: a fixed table of demo
    replies, a module-level `isDemo` flag, and `generateMindMap`, which
    answers from the table in demo mode (or without an API client) and
    otherwise asks the remote model, falling back to the table for good on
    the first error. The remote call is an input (`ApiOutcome`); the API
    client's presence is the `hasClient` field of the state. */
module MindMapService {
  import opened Basics

  /** One `{name, description}` entry of a reply. */
  datatype Subcategory = Subcategory(name: string, description: string)

  /** The `subcategories` field as the caller sees it: either a list, or a
      value without a `.map` method (the caller's `.map` then throws). */
  datatype Subcategories = Items(items: seq<Subcategory>) | NotAList

  /** A `{description, subcategories}` reply. A missing description is the
      empty string, which is what the callers' defaults and `||` make of it. */
  datatype Reply = Reply(description: string, subcategories: Subcategories)

  /** The `subcategories` field of the parsed model output: falsy (missing,
      `null`, ...), an array, or some other truthy value. */
  datatype ApiField = Falsy | Array(items: seq<Subcategory>) | Truthy

  /** What the remote model call produced: a parsed reply, or any error
      (network, API or JSON parsing), all of which are caught alike. */
  datatype ApiOutcome = ApiOk(description: string, subcategories: ApiField) | ApiError

  /** The module-level state: the sticky `isDemo` flag and whether an API
      client was built at load time (an API key was configured). */
  datatype ServiceState = ServiceState(isDemo: bool, hasClient: bool)

  // ---------------------------------------------------------------------
  // The demo table.
  // ---------------------------------------------------------------------

  const FinanceReply: Reply := Reply(
    "How money flows and is managed: earning, saving, investing, borrowing, and risk.",
    Items([
      Subcategory("Personal Finance", "Managing individual or family money, including budgeting, saving, and investing."),
      Subcategory("Corporate Finance", "How businesses manage funds, make investments, and maximize shareholder value."),
      Subcategory("Investment", "Growing wealth through stocks, bonds, real estate, and other financial instruments."),
      Subcategory("Banking", "Financial institutions that accept deposits and provide loans and other services.")
    ]))

  const TechnologyReply: Reply := Reply(
    "The application of scientific knowledge for practical purposes, especially in industry and daily life.",
    Items([
      Subcategory("Artificial Intelligence", "Systems that can simulate human intelligence and perform tasks like learning and problem-solving."),
      Subcategory("Cloud Computing", "Delivery of computing services over the internet, including storage, processing, and software."),
      Subcategory("Cybersecurity", "Protection of computer systems and networks from information disclosure and theft.")
    ]))

  /** The table's own keys. */
  const DemoResponses: map<string, Reply> := map["finance" := FinanceReply, "technology" := TechnologyReply]

  predicate IsUpper(c: char) {
    'A' <= c <= 'Z'
  }

  function LowerChar(c: char): (l: char)
    ensures IsUpper(c) ==> l as int == c as int + 32
    ensures !IsUpper(c) ==> l == c
    ensures !IsUpper(l)
  {
    if IsUpper(c) then (c as int + 32) as char else c
  }

  /** `toLowerCase`, restricted to the ASCII letters. */
  function ToLowerAscii(s: string): (r: string)
    ensures |r| == |s|
    ensures forall i :: 0 <= i < |s| ==> r[i] == LowerChar(s[i])
  {
    if s == [] then [] else [LowerChar(s[0])] + ToLowerAscii(s[1..])
  }

  /** Lowering twice is lowering once. */
  lemma ToLowerIdempotent(s: string)
    ensures ToLowerAscii(ToLowerAscii(s)) == ToLowerAscii(s)
  {
    var l := ToLowerAscii(s);
    assert forall i :: 0 <= i < |l| ==> !IsUpper(l[i]);
  }

  /** `demoResponses[subject.toLowerCase()] || demoResponses.finance`, with
      the lookup restricted to the table's own keys: the technology reply for
      any capitalisation of "technology", the finance reply for anything
      else. */
  function DemoLookup(subject: string): (r: Reply)
    ensures ToLowerAscii(subject) == "technology" ==> r == TechnologyReply
    ensures ToLowerAscii(subject) != "technology" ==> r == FinanceReply
    ensures r.subcategories.Items?
    ensures |r.subcategories.items| == if ToLowerAscii(subject) == "technology" then 3 else 4
  {
    var key := ToLowerAscii(subject);
    if key in DemoResponses then DemoResponses[key] else DemoResponses["finance"]
  }

  /** The lookup as written indexes a plain object, so the keys inherited
      from `Object.prototype` are found too. Of these only "constructor" and
      "__proto__" are all lower-case and thus reachable after lowering; both
      yield a truthy value that has neither `description` nor an array
      `subcategories`. */
  function DemoLookupAsWritten(subject: string): (r: Reply)
    ensures ToLowerAscii(subject) in {"constructor", "__proto__"} ==> r == Reply("", NotAList)
    ensures ToLowerAscii(subject) !in {"constructor", "__proto__"} ==> r == DemoLookup(subject)
  {
    var key := ToLowerAscii(subject);
    if key == "constructor" || key == "__proto__" then Reply("", NotAList)
    else DemoLookup(subject)
  }

  /** A string without upper-case letters lowers to itself. */
  lemma LowerOfLower(s: string)
    requires forall i :: 0 <= i < |s| ==> !IsUpper(s[i])
    ensures ToLowerAscii(s) == s
  {
  }

  /** The inherited-key lookup answers "constructor" with no subcategory
      list, where the table's default (finance) was meant. */
  lemma InheritedKeyLookup()
    ensures DemoLookupAsWritten("constructor") == Reply("", NotAList)
    ensures DemoLookup("constructor") == FinanceReply
    ensures DemoLookupAsWritten("constructor") != DemoLookup("constructor")
  {
    LowerOfLower("constructor");
  }

  // ---------------------------------------------------------------------
  // The service.
  // ---------------------------------------------------------------------

  /** `setDemoMode(enabled)`. */
  function SetDemoMode(st: ServiceState, enabled: bool): (r: ServiceState)
    ensures r.isDemo == enabled && r.hasClient == st.hasClient
  {
    st.(isDemo := enabled)
  }

  /** `result.subcategories || []`. */
  function Normalize(f: ApiField): (r: Subcategories)
    ensures f.Array? <==> r.Items? && f != Falsy
    ensures f.Array? ==> r == Items(f.items)
    ensures f.Falsy? ==> r == Items([])
  {
    match f
    case Falsy => Items([])
    case Array(items) => Items(items)
    case Truthy => NotAList
  }

  /** Whether a call in state `st` takes the demo path without asking. */
  predicate Offline(st: ServiceState) {
    st.isDemo || !st.hasClient
  }

  /** `generateMindMap(subject)` with `api` standing for the remote call's
      outcome (only consulted when online): the new state and the reply. On a
      string subject the promise never rejects; a non-string subject, which
      `string` cannot express, is left out. */
  function GenerateMindMap(st: ServiceState, subject: string, api: ApiOutcome): (r: (ServiceState, Reply))
    ensures r.0.hasClient == st.hasClient
    ensures r.0.isDemo <==> st.isDemo || (st.hasClient && api.ApiError?)
    ensures Offline(st) || api.ApiError? ==> r.1 == DemoLookup(subject)
    ensures !Offline(st) && api.ApiOk? ==> r.1 == Reply(api.description, Normalize(api.subcategories))
  {
    if Offline(st) then (st, DemoLookup(subject))
    else match api
      case ApiOk(description, subcategories) => (st, Reply(description, Normalize(subcategories)))
      case ApiError => (SetDemoMode(st, true), DemoLookup(subject))
  }

  /** `generateMindMap` with the demo lookup as written. It moves to the same
      state and gives the same reply, except that a table answer for an
      inherited key is the inherited value, with no description and no
      list. */
  function GenerateMindMapAsWritten(st: ServiceState, subject: string, api: ApiOutcome): (r: (ServiceState, Reply))
    ensures r.0 == GenerateMindMap(st, subject, api).0
    ensures (Offline(st) || api.ApiError?) && ToLowerAscii(subject) in {"constructor", "__proto__"} ==>
      r.1 == Reply("", NotAList)
    ensures !((Offline(st) || api.ApiError?) && ToLowerAscii(subject) in {"constructor", "__proto__"}) ==>
      r.1 == GenerateMindMap(st, subject, api).1
  {
    if Offline(st) then (st, DemoLookupAsWritten(subject))
    else match api
      case ApiOk(description, subcategories) => (st, Reply(description, Normalize(subcategories)))
      case ApiError => (SetDemoMode(st, true), DemoLookupAsWritten(subject))
  }

  /** A sequence of calls, the `i`-th for `subjects[i]` meeting remote
      outcome `apis[i]`: the final state and the replies in order. Each call
      settles before the next one starts; `Overlapped` covers two calls in
      flight at once. */
  function Calls(st: ServiceState, subjects: seq<string>, apis: seq<ApiOutcome>): (r: (ServiceState, seq<Reply>))
    requires |subjects| == |apis|
    ensures |r.1| == |subjects|
    ensures r.0.hasClient == st.hasClient
    decreases |subjects|
  {
    if subjects == [] then (st, [])
    else
      var first := GenerateMindMap(st, subjects[0], apis[0]);
      var rest := Calls(first.0, subjects[1..], apis[1..]);
      (rest.0, [first.1] + rest.1)
  }

  /** Demo mode is sticky: once on, every later call answers from the table,
      whatever the remote outcomes, and the flag stays on. */
  lemma {:induction false} DemoIsSticky(st: ServiceState, subjects: seq<string>, apis: seq<ApiOutcome>)
    requires |subjects| == |apis| && st.isDemo
    ensures Calls(st, subjects, apis).0 == st
    ensures forall i :: 0 <= i < |subjects| ==> Calls(st, subjects, apis).1[i] == DemoLookup(subjects[i])
    decreases |subjects|
  {
    if subjects != [] {
      DemoIsSticky(st, subjects[1..], apis[1..]);
      var rest := Calls(st, subjects[1..], apis[1..]);
      assert Calls(st, subjects, apis).1 == [DemoLookup(subjects[0])] + rest.1;
    }
  }

  /** The first remote error switches demo mode on: every call after it
      answers from the table and the flag ends up on. */
  lemma {:induction false} ErrorSwitchesToDemo(st: ServiceState, subjects: seq<string>, apis: seq<ApiOutcome>, j: nat)
    requires |subjects| == |apis| && j < |apis| && st.hasClient && apis[j].ApiError?
    ensures Calls(st, subjects, apis).0.isDemo
    ensures forall i :: j <= i < |subjects| ==> Calls(st, subjects, apis).1[i] == DemoLookup(subjects[i])
    decreases j
  {
    var first := GenerateMindMap(st, subjects[0], apis[0]);
    var rest := Calls(first.0, subjects[1..], apis[1..]);
    assert Calls(st, subjects, apis).1 == [first.1] + rest.1;
    if j == 0 {
      DemoIsSticky(first.0, subjects[1..], apis[1..]);
    } else {
      ErrorSwitchesToDemo(first.0, subjects[1..], apis[1..], j - 1);
    }
  }

  /** Two calls in flight at once: both test `isDemo` (services/mindmap.js:75)
      before either request settles, so each follows the state it started
      in, and the flag ends up on when either request failed. Nothing in
      the module serialises calls. */
  function Overlapped(st: ServiceState, a: string, b: string, apiA: ApiOutcome, apiB: ApiOutcome): (r: (ServiceState, Reply, Reply))
    ensures r.0.hasClient == st.hasClient
    ensures r.0.isDemo <==> st.isDemo || (st.hasClient && (apiA.ApiError? || apiB.ApiError?))
    ensures Offline(st) || apiA.ApiError? ==> r.1 == DemoLookup(a)
    ensures !Offline(st) && apiA.ApiOk? ==> r.1 == Reply(apiA.description, Normalize(apiA.subcategories))
    ensures Offline(st) || apiB.ApiError? ==> r.2 == DemoLookup(b)
    ensures !Offline(st) && apiB.ApiOk? ==> r.2 == Reply(apiB.description, Normalize(apiB.subcategories))
  {
    var ra := GenerateMindMap(st, a, apiA);
    var rb := GenerateMindMap(st, b, apiB);
    (ServiceState(ra.0.isDemo || rb.0.isDemo, st.hasClient), ra.1, rb.1)
  }

  /** The switch to demo mode does not reach a call already in flight: with
      a client, a failure of the first of two overlapping calls still lets
      the second answer from the remote model, while run one after the other
      the second would answer from the table. */
  lemma OverlapNotSticky(a: string, b: string, description: string, field: ApiField)
    ensures var st := ServiceState(false, true);
      var r := Overlapped(st, a, b, ApiError, ApiOk(description, field));
      && r.0.isDemo
      && r.2 == Reply(description, Normalize(field))
      && Calls(st, [a, b], [ApiError, ApiOk(description, field)]).1[1] == DemoLookup(b)
  {
    var st := ServiceState(false, true);
    ErrorSwitchesToDemo(st, [a, b], [ApiError, ApiOk(description, field)], 0);
  }

  /** Without an error (or without a client) the flag never turns itself on. */
  lemma {:induction false} NoErrorNoDemo(st: ServiceState, subjects: seq<string>, apis: seq<ApiOutcome>)
    requires |subjects| == |apis| && !st.isDemo
    requires forall i :: 0 <= i < |apis| ==> !(st.hasClient && apis[i].ApiError?)
    ensures !Calls(st, subjects, apis).0.isDemo
    decreases |subjects|
  {
    if subjects != [] {
      NoErrorNoDemo(GenerateMindMap(st, subjects[0], apis[0]).0, subjects[1..], apis[1..]);
    }
  }
}

=== FILE: store_proofs.dfy ===
/** What `addNode` and `removeSubtree` (components/MindMap.js) preserve of
    the tree shape. Adding a node never creates a cycle: the new node has no
    children, so the old ranking shifted up by one with the new id at the
    bottom ranks the result. Adding a node under a fresh id keeps the store a
    tree, and removing a subtree always does. */
module StoreProofs {
  import opened Basics
  import opened Ids
  import opened NodeStore
  import opened Tree

  /** The screen starts from an empty map and an empty edge list: a valid
      store and a forest under the empty ranking, the base case from which
      every transition keeps these invariants. */
  lemma EmptyStoreWellFormed()
    ensures Valid(EmptyStore) && EmptyStore.edges == []
    ensures WellFormed(EmptyStore.nodes, map[])
  {
  }

  /** The ranking after `id` is (re)inserted as a childless node: every old
      rank goes up by one and `id` gets rank 0. */
  ghost function Lift(m: map<Id, Node>, rank: map<Id, nat>, id: Id): (l: map<Id, nat>)
    requires forall k :: k in m ==> k in rank
    ensures l.Keys == m.Keys + {id}
    ensures l[id] == 0
    ensures forall k :: k in m && k != id ==> l[k] == rank[k] + 1
  {
    map k | k in m.Keys + {id} :: if k == id then 0 else rank[k] + 1
  }

  /** The children list a node has after `addNode`: its old list, plus the
      new id at the end when it is the named parent. */
  lemma AddNodeChildren(s: Store, name: string, description: string, parentId: Option<Id>, size: nat, k: Id)
    requires k in s.nodes && k != NextId(name, size)
    ensures k in AddNode(s, name, description, parentId, size).nodes
    ensures var n := AddNode(s, name, description, parentId, size).nodes[k];
      && n.parentId == s.nodes[k].parentId
      && n.childIds == s.nodes[k].childIds + (if parentId == Some(k) then [NextId(name, size)] else [])
  {
    assert s.nodes[k].childIds + [] == s.nodes[k].childIds;
  }

  /** `addNode` keeps the store acyclic, whatever the id and the parent. */
  lemma AddNodeRanked(s: Store, name: string, description: string, parentId: Option<Id>, size: nat, rank: map<Id, nat>)
    requires Ranked(s.nodes, rank)
    ensures Ranked(AddNode(s, name, description, parentId, size).nodes, Lift(s.nodes, rank, NextId(name, size)))
    ensures Acyclic(AddNode(s, name, description, parentId, size).nodes)
  {
    var id := NextId(name, size);
    var r := AddNode(s, name, description, parentId, size).nodes;
    var lift := Lift(s.nodes, rank, id);
    forall k, i | k in r && 0 <= i < |r[k].childIds| && r[k].childIds[i] in r
      ensures lift[r[k].childIds[i]] < lift[k]
    {
      var c := r[k].childIds[i];
      if k != id && c != id {
        AddNodeChildren(s, name, description, parentId, size, k);
        var before := s.nodes[k].childIds;
        assert i < |before| && c == before[i];
      }
    }
    assert Ranked(r, lift);
  }

  /** `addNode` under an id not yet in the store keeps a tree a tree; the
      named parent may be absent (the new node is then unreachable). */
  lemma AddNodeWellFormed(s: Store, name: string, description: string, parentId: Option<Id>, size: nat, rank: map<Id, nat>)
    requires WellFormed(s.nodes, rank) && NextId(name, size) !in s.nodes
    ensures WellFormed(AddNode(s, name, description, parentId, size).nodes, Lift(s.nodes, rank, NextId(name, size)))
  {
    var id := NextId(name, size);
    var r := AddNode(s, name, description, parentId, size).nodes;
    AddNodeRanked(s, name, description, parentId, size, rank);
    forall k, i | k in r && 0 <= i < |r[k].childIds|
      ensures r[k].childIds[i] in r
      ensures r[r[k].childIds[i]].parentId == Some(k)
    {
      AddNodeChildren(s, name, description, parentId, size, k);
      var before := s.nodes[k].childIds;
      var c := r[k].childIds[i];
      if i < |before| {
        assert c == before[i] && c in s.nodes;
        AddNodeChildren(s, name, description, parentId, size, c);
      }
    }
    forall k | k in r
      ensures Distinct(r[k].childIds)
    {
      if k != id {
        AddNodeChildren(s, name, description, parentId, size, k);
        var before := s.nodes[k].childIds;
        assert id !in before;
      }
    }
  }

  /** `removeSubtree` keeps a tree a tree: no surviving node lists a removed
      one, because the only outside lister of the subtree is the recorded
      parent of its top, which drops it. */
  lemma RemoveSubtreeWellFormed(s: Store, x: Id, rank: map<Id, nat>)
    requires WellFormed(s.nodes, rank)
    ensures WellFormed(RemoveSubtree(s, x, rank).nodes, rank)
  {
    var r := RemoveSubtree(s, x, rank).nodes;
    var d := Desc(s.nodes, x, rank);
    forall k, i | k in r && 0 <= i < |r[k].childIds|
      ensures r[k].childIds[i] in r
      ensures r[r[k].childIds[i]].parentId == Some(k)
    {
      var c := r[k].childIds[i];
      var j := KeptChild(s, x, rank, k, i);
      assert s.nodes[c].parentId == Some(k);
      if c in d && c != x {
        // The lister inside the subtree would be `k`'s rival as parent.
        DescHasLister(s.nodes, x, rank, c);
        assert false;
      }
      assert r[c].parentId == s.nodes[c].parentId;
    }
    forall k | k in r
      ensures Distinct(r[k].childIds)
    {
      if Some(k) == ParentOf(s.nodes, x) {
        FilterDistinct(s.nodes[k].childIds, y => y != x);
      }
    }
  }

  /** Every child a surviving node lists after `removeSubtree` is one it
      listed before (at index `j`), other than the removed top. */
  lemma KeptChild(s: Store, x: Id, rank: map<Id, nat>, k: Id, i: nat) returns (j: nat)
    requires Ranked(s.nodes, rank)
    requires k in RemoveSubtree(s, x, rank).nodes && i < |RemoveSubtree(s, x, rank).nodes[k].childIds|
    ensures k in s.nodes && j < |s.nodes[k].childIds|
    ensures s.nodes[k].childIds[j] == RemoveSubtree(s, x, rank).nodes[k].childIds[i]
    ensures Some(k) == ParentOf(s.nodes, x) ==> s.nodes[k].childIds[j] != x
  {
    var r := RemoveSubtree(s, x, rank).nodes;
    var c := r[k].childIds[i];
    assert c in r[k].childIds;
    assert c in s.nodes[k].childIds && (Some(k) == ParentOf(s.nodes, x) ==> c != x);
    j :| j < |s.nodes[k].childIds| && s.nodes[k].childIds[j] == c;
  }
}

=== FILE: toggle_proofs.dfy ===
/** Properties of the long-press transition and of `initialize`
    (components/MindMap.js): what an expansion adds, the ways a batch can
    break the tree shape (a repeated name, a reply that arrives after its
    node was deleted), the inherited-key reply, that every transition keeps
    the store acyclic and, on fresh ids, a tree, and that a second
    `initialize` leaves the laid-out root where it was. */
module ToggleProofs {
  import opened Basics
  import opened Ids
  import opened NodeStore
  import opened Tree
  import opened Layout
  import opened MindMapService
  import opened Expansion
  import opened StoreProofs

  /** A forest: some ranking makes the store well formed. */
  ghost predicate IsForest(m: map<Id, Node>) {
    exists rank :: WellFormed(m, rank)
  }

  /** Two maps with the same keys and the same links. */
  ghost predicate SameLinks(a: map<Id, Node>, b: map<Id, Node>) {
    && a.Keys == b.Keys
    && forall k :: k in a ==> b[k].childIds == a[k].childIds && b[k].parentId == a[k].parentId
  }

  /** Updates that touch neither `childIds` nor `parentId` keep every
      ranking and the tree shape. */
  lemma SameLinksWellFormed(a: map<Id, Node>, b: map<Id, Node>, rank: map<Id, nat>)
    requires SameLinks(a, b)
    ensures Ranked(a, rank) ==> Ranked(b, rank)
    ensures WellFormed(a, rank) ==> WellFormed(b, rank)
  {
  }

  // ---------------------------------------------------------------------
  // Acyclicity and tree shape.
  // ---------------------------------------------------------------------

  /** A batch of children never creates a cycle. */
  lemma {:induction false} BatchAcyclic(s: Store, items: seq<Subcategory>, parent: Id, base: nat, rank: map<Id, nat>)
    requires Ranked(s.nodes, rank)
    ensures Acyclic(AddChildren(s, items, parent, base).nodes)
    decreases |items|
  {
    if items == [] {
      assert Ranked(s.nodes, rank);
    } else {
      var s1 := AddNode(s, items[0].name, items[0].description, Some(parent), base);
      AddNodeRanked(s, items[0].name, items[0].description, Some(parent), base, rank);
      BatchAcyclic(s1, items[1..], parent, base, Lift(s.nodes, rank, NextId(items[0].name, base)));
    }
  }

  /** The ids of a batch are pairwise different and none is taken yet. */
  ghost predicate FreshBatch(s: Store, items: seq<Subcategory>, base: nat) {
    && Distinct(BatchIds(items, base))
    && forall i :: 0 <= i < |items| ==> BatchIds(items, base)[i] !in s.nodes
  }

  /** A batch of fresh, distinct ids keeps a forest a forest. */
  lemma {:induction false} BatchWellFormed(s: Store, items: seq<Subcategory>, parent: Id, base: nat, rank: map<Id, nat>)
    requires WellFormed(s.nodes, rank) && FreshBatch(s, items, base)
    ensures IsForest(AddChildren(s, items, parent, base).nodes)
    decreases |items|
  {
    if items == [] {
      assert WellFormed(s.nodes, rank);
    } else {
      var id := NextId(items[0].name, base);
      var s1 := AddNode(s, items[0].name, items[0].description, Some(parent), base);
      var ids := BatchIds(items, base);
      assert ids == [id] + BatchIds(items[1..], base);
      assert id == ids[0] && id !in s.nodes;
      AddNodeWellFormed(s, items[0].name, items[0].description, Some(parent), base, rank);
      forall i | 0 <= i < |items[1..]|
        ensures BatchIds(items[1..], base)[i] !in s1.nodes
      {
        assert BatchIds(items[1..], base)[i] == ids[i + 1];
      }
      BatchWellFormed(s1, items[1..], parent, base, Lift(s.nodes, rank, id));
    }
  }

  /** Every long press keeps the store acyclic. */
  lemma LongPressAcyclic(s: Store, pressed: Node, outcome: Fetch, base: nat, rank: map<Id, nat>)
    requires Ranked(s.nodes, rank)
    ensures Acyclic(LongPress(s, pressed, outcome, base, rank).nodes)
  {
    var r := LongPress(s, pressed, outcome, base, rank);
    if pressed.expanded {
      var removed := RemoveSubtree(s, pressed.id, rank);
      SameLinksWellFormed(removed.nodes, r.nodes, rank);
      assert Ranked(r.nodes, rank);
    } else if outcome.Failed? {
      assert Ranked(r.nodes, rank);
    } else {
      var marked := MarkExpanded(s, pressed.id, outcome.reply.description);
      SameLinksWellFormed(s.nodes, marked.nodes, rank);
      match outcome.reply.subcategories
      case NotAList =>
        assert Ranked(r.nodes, rank);
      case Items(items) =>
        BatchAcyclic(marked, items, pressed.id, base, rank);
    }
  }

  /** A collapse, a failure and a non-list reply always keep a forest a
      forest; a list reply does when its ids are fresh and distinct. */
  lemma LongPressWellFormed(s: Store, pressed: Node, outcome: Fetch, base: nat, rank: map<Id, nat>)
    requires WellFormed(s.nodes, rank)
    requires !pressed.expanded && outcome.Fetched? && outcome.reply.subcategories.Items? ==>
      FreshBatch(s, outcome.reply.subcategories.items, base)
    ensures IsForest(LongPress(s, pressed, outcome, base, rank).nodes)
  {
    var r := LongPress(s, pressed, outcome, base, rank);
    if pressed.expanded {
      CollapseWellFormed(s, pressed, outcome, base, rank);
    } else if outcome.Failed? {
      assert WellFormed(r.nodes, rank);
    } else {
      ExpandWellFormed(s, pressed, outcome.reply, base, rank);
    }
  }

  /** The expand branch keeps the store a forest when the batch's ids are
      fresh and distinct. */
  lemma ExpandWellFormed(s: Store, pressed: Node, reply: Reply, base: nat, rank: map<Id, nat>)
    requires WellFormed(s.nodes, rank) && !pressed.expanded
    requires reply.subcategories.Items? ==> FreshBatch(s, reply.subcategories.items, base)
    ensures IsForest(LongPress(s, pressed, Fetched(reply), base, rank).nodes)
  {
    var marked := MarkExpanded(s, pressed.id, reply.description);
    SameLinksWellFormed(s.nodes, marked.nodes, rank);
    match reply.subcategories
    case NotAList =>
      assert WellFormed(marked.nodes, rank);
    case Items(items) =>
      BatchWellFormed(marked, items, pressed.id, base, rank);
  }

  /** The collapse branch keeps the store a forest. */
  lemma CollapseWellFormed(s: Store, pressed: Node, outcome: Fetch, base: nat, rank: map<Id, nat>)
    requires WellFormed(s.nodes, rank) && pressed.expanded
    ensures WellFormed(LongPress(s, pressed, outcome, base, rank).nodes, rank)
  {
    var removed := RemoveSubtree(s, pressed.id, rank);
    RemoveSubtreeWellFormed(s, pressed.id, rank);
    SameLinksWellFormed(removed.nodes, SetCollapsed(removed, pressed.id).nodes, rank);
  }

  // ---------------------------------------------------------------------
  // What an expansion does.
  // ---------------------------------------------------------------------

  /** A list reply for a collapsed node that is still present: the node is
      marked expanded, takes the reply's description unless it is empty,
      and lists the batch's ids after its old children; the child made for
      the last entry of each name is a fresh node under it; every other old
      node is unchanged; one edge per entry is appended. */
  lemma ExpandPresent(s: Store, pressed: Node, reply: Reply, base: nat, rank: map<Id, nat>, i: nat)
    requires Ranked(s.nodes, rank)
    requires !pressed.expanded && pressed.id in s.nodes && reply.subcategories.Items?
    requires pressed.id !in BatchIds(reply.subcategories.items, base)
    requires i < |reply.subcategories.items|
    ensures var r := LongPress(s, pressed, Fetched(reply), base, rank);
      var items := reply.subcategories.items;
      var n := s.nodes[pressed.id];
      && pressed.id in r.nodes
      && r.nodes[pressed.id] == n.(
           expanded := true,
           description := if reply.description == "" then n.description else reply.description,
           childIds := n.childIds + BatchIds(items, base))
      && (LastOfName(items, i) ==>
           r.nodes[NextId(items[i].name, base)]
             == FreshNode(NextId(items[i].name, base), items[i].name, items[i].description, Some(pressed.id)))
      && (forall k :: k in s.nodes && k != pressed.id && k !in BatchIds(items, base) ==> r.nodes[k] == s.nodes[k])
      && r.edges == s.edges + BatchEdges(pressed.id, items, base)
  {
    var items := reply.subcategories.items;
    var marked := MarkExpanded(s, pressed.id, reply.description);
    BatchParent(marked, items, pressed.id, base);
    assert NextId(items[i].name, base) == BatchIds(items, base)[i];
    if LastOfName(items, i) {
      BatchChildFresh(marked, items, pressed.id, base, i);
    }
    forall k | k in s.nodes && k != pressed.id && k !in BatchIds(items, base)
      ensures AddChildren(marked, items, pressed.id, base).nodes[k] == s.nodes[k]
    {
      BatchFrame(marked, items, pressed.id, base, k);
    }
  }

  /** Two entries with the same name get the same id, so the parent lists
      that id twice and the store is no longer a tree. */
  lemma RepeatedNameBreaksTree(s: Store, items: seq<Subcategory>, parent: Id, base: nat, i: nat, j: nat)
    requires parent in s.nodes && parent !in BatchIds(items, base)
    requires i < j < |items| && items[i].name == items[j].name
    ensures !Distinct(AddChildren(s, items, parent, base).nodes[parent].childIds)
    ensures !DistinctChildren(AddChildren(s, items, parent, base).nodes)
  {
    BatchParent(s, items, parent, base);
    var r := AddChildren(s, items, parent, base).nodes;
    var before := s.nodes[parent].childIds;
    var ids := BatchIds(items, base);
    var cs := r[parent].childIds;
    assert cs == before + ids;
    assert ids[i] == ids[j];
    RepeatAt(before, ids, i, j);
  }

  /** A repeat in the appended part is a repeat of the whole. */
  lemma RepeatAt(a: seq<Id>, b: seq<Id>, i: nat, j: nat)
    requires i < j < |b| && b[i] == b[j]
    ensures !Distinct(a + b)
  {
    assert (a + b)[|a| + i] == (a + b)[|a| + j];
  }

  /** A reply that completes after its node was deleted (say by collapsing
      its parent during the `await`) still adds the children and their
      edges: each last-of-name child names the absent node as its parent, so
      it is not a root. That it is also unreachable needs fresh ids (see
      `LateReplyUnlisted`): an id that collides with a surviving listed child
      stays listed. */
  lemma LateReplyOrphans(s: Store, pressed: Node, reply: Reply, base: nat, rank: map<Id, nat>, i: nat)
    requires Ranked(s.nodes, rank)
    requires !pressed.expanded && pressed.id !in s.nodes && reply.subcategories.Items?
    requires pressed.id !in BatchIds(reply.subcategories.items, base)
    requires i < |reply.subcategories.items| && LastOfName(reply.subcategories.items, i)
    ensures var r := LongPress(s, pressed, Fetched(reply), base, rank);
      var c := NextId(reply.subcategories.items[i].name, base);
      && c in r.nodes
      && r.nodes[c].parentId == Some(pressed.id)
      && pressed.id !in r.nodes
      && !IsRoot(r.nodes, c)
      && Edge(pressed.id, c) in r.edges
  {
    var items := reply.subcategories.items;
    var marked := MarkExpanded(s, pressed.id, reply.description);
    var r := AddChildren(marked, items, pressed.id, base);
    assert NextId(items[i].name, base) == BatchIds(items, base)[i];
    BatchChildFresh(marked, items, pressed.id, base, i);
    assert r.edges[|s.edges| + i] == Edge(pressed.id, NextId(items[i].name, base));
  }

  /** A batch under a parent that is neither in the store nor one of the new
      ids links nothing: each new id lists no children, and every other
      node keeps its list. */
  lemma {:induction false} OrphanBatchLinks(s: Store, items: seq<Subcategory>, parent: Id, base: nat, k: Id)
    requires parent !in s.nodes && parent !in BatchIds(items, base)
    requires k in s.nodes || k in BatchIds(items, base)
    ensures AddChildren(s, items, parent, base).nodes[k].childIds ==
      if k in BatchIds(items, base) then [] else s.nodes[k].childIds
    decreases |items|
  {
    if items != [] {
      var id := NextId(items[0].name, base);
      var s1 := AddNode(s, items[0].name, items[0].description, Some(parent), base);
      BatchCons(items, parent, base);
      OrphanBatchLinks(s1, items[1..], parent, base, k);
      if k != id && k !in BatchIds(items[1..], base) {
        AddNodeChildren(s, items[0].name, items[0].description, Some(parent), base, k);
      }
    }
  }

  /** When the ids of a late batch are new to a forest, no node lists any of
      them, so the orphans are unreachable from every root. (An id that
      collides with a surviving listed child stays listed.) */
  lemma LateReplyUnlisted(s: Store, pressed: Node, reply: Reply, base: nat, rank: map<Id, nat>)
    requires WellFormed(s.nodes, rank)
    requires !pressed.expanded && pressed.id !in s.nodes && reply.subcategories.Items?
    requires pressed.id !in BatchIds(reply.subcategories.items, base)
    requires forall i :: 0 <= i < |reply.subcategories.items| ==> BatchIds(reply.subcategories.items, base)[i] !in s.nodes
    ensures var r := LongPress(s, pressed, Fetched(reply), base, rank);
      forall k, j :: k in r.nodes && 0 <= j < |r.nodes[k].childIds| ==>
        r.nodes[k].childIds[j] !in BatchIds(reply.subcategories.items, base)
  {
    var items := reply.subcategories.items;
    var r := LongPress(s, pressed, Fetched(reply), base, rank);
    assert r == AddChildren(s, items, pressed.id, base);
    forall k, j | k in r.nodes && 0 <= j < |r.nodes[k].childIds|
      ensures r.nodes[k].childIds[j] !in BatchIds(items, base)
    {
      OrphanBatchLinks(s, items, pressed.id, base, k);
      assert k in s.nodes && r.nodes[k].childIds == s.nodes[k].childIds;
    }
  }

  /** The inherited-key reply of the as-written demo table, for a collapsed
      node still present: the node is marked expanded with its description
      kept, and nothing else changes, since the reply carries no list. The
      corrected table answers with the four finance entries instead. */
  lemma InheritedKeyPress(s: Store, pressed: Node, base: nat, rank: map<Id, nat>)
    requires Ranked(s.nodes, rank)
    requires !pressed.expanded && pressed.id in s.nodes
    ensures var r := LongPress(s, pressed, Fetched(DemoLookupAsWritten("constructor")), base, rank);
      && r.nodes.Keys == s.nodes.Keys
      && r.nodes[pressed.id] == s.nodes[pressed.id].(expanded := true)
      && r.edges == s.edges
    ensures var r := LongPress(s, pressed, Fetched(DemoLookup("constructor")), base, rank);
      r.edges == s.edges + BatchEdges(pressed.id, FinanceReply.subcategories.items, base)
  {
    InheritedKeyLookup();
  }

  // ---------------------------------------------------------------------
  // `initialize` and the laid-out root.
  // ---------------------------------------------------------------------

  /** Appending a new root to the insertion order changes the first root
      only when there was none. */
  lemma {:induction false} FirstRootAppend(order: seq<Id>, m: map<Id, Node>, m': map<Id, Node>, id: Id, from: nat)
    requires from <= |order| && id !in order && IsRoot(m', id)
    requires forall j :: from <= j < |order| ==> (IsRoot(m', order[j]) <==> IsRoot(m, order[j]))
    ensures FirstRootFrom(order + [id], m', from)
      == if FirstRootFrom(order, m, from).Some? then FirstRootFrom(order, m, from) else Some(|order|)
    decreases |order| - from
  {
    var ext := order + [id];
    assert ext[from] == if from < |order| then order[from] else id;
    if from < |order| && !IsRoot(m, order[from]) {
      FirstRootAppend(order, m, m', id, from + 1);
    }
  }

  /** A second `initialize` under a new id does not replace what is laid
      out: the first parentless node in insertion order stays the same, and
      the new node becomes the laid-out root only in a store without one. */
  lemma InitializeKeepsFirstRoot(s: Store, subject: string, outcome: Fetch, size: nat)
    requires Valid(s) && NextId(subject, size) !in s.nodes
    ensures FirstRoot(Initialize(s, subject, outcome, size))
      == if FirstRoot(s).Some? then FirstRoot(s) else Some(|s.order|)
  {
    var id := NextId(subject, size);
    var r := Initialize(s, subject, outcome, size);
    assert id !in s.order;
    assert r.order == s.order + [id];
    forall j | 0 <= j < |s.order|
      ensures IsRoot(r.nodes, s.order[j]) <==> IsRoot(s.nodes, s.order[j])
    {
      assert s.order[j] in s.nodes;
    }
    FirstRootAppend(s.order, s.nodes, r.nodes, id, 0);
  }

  // ---------------------------------------------------------------------
  // Which root is laid out after a collapse.
  // ---------------------------------------------------------------------

  /** The first parentless node of `order`, by id: a reference definition of
      `Array.from(nodes.values()).find(n => !n.parentId)` on the list itself. */
  function FirstRootIn(order: seq<Id>, m: map<Id, Node>): (r: Option<Id>)
    ensures r.Some? ==> r.value in order && IsRoot(m, r.value)
    ensures r.None? ==> forall k :: k in order ==> !IsRoot(m, k)
  {
    if order == [] then None
    else if IsRoot(m, order[0]) then Some(order[0])
    else FirstRootIn(order[1..], m)
  }

  /** The id of the node `layout` starts from. */
  function RootId(s: Store): Option<Id> {
    match FirstRoot(s)
    case Some(i) => Some(s.order[i])
    case None => None
  }

  /** The position-based search of `layout` and the list-based one agree. */
  lemma {:induction false} FirstRootFromIn(order: seq<Id>, m: map<Id, Node>, from: nat)
    requires from <= |order|
    ensures FirstRootIn(order[from..], m)
      == match FirstRootFrom(order, m, from) case Some(i) => Some(order[i]) case None => None
    decreases |order| - from
  {
    if from < |order| {
      assert order[from..][0] == order[from] && order[from..][1..] == order[from + 1..];
      FirstRootFromIn(order, m, from + 1);
    }
  }

  /** Dropping entries that are not roots does not change the first root. */
  lemma {:induction false} FirstRootInFilter(order: seq<Id>, m: map<Id, Node>, keep: Id -> bool)
    requires forall k :: k in order && IsRoot(m, k) ==> keep(k)
    ensures FirstRootIn(Filter(order, keep), m) == FirstRootIn(order, m)
  {
    if order != [] {
      var rest := Filter(order[1..], keep);
      assert forall k :: k in order[1..] ==> k in order;
      FirstRootInFilter(order[1..], m, keep);
      if keep(order[0]) {
        var kept := [order[0]] + rest;
        assert Filter(order, keep) == kept;
        assert kept[0] == order[0] && kept[1..] == rest;
        if !IsRoot(m, order[0]) {
          assert FirstRootIn(kept, m) == FirstRootIn(rest, m);
        }
      } else {
        assert Filter(order, keep) == rest;
      }
    }
  }

  /** Under a map whose roots are all roots of `m`, a first root of `m`
      that is still a root stays the first root. */
  lemma {:induction false} FirstRootInSurvives(order: seq<Id>, m: map<Id, Node>, m': map<Id, Node>)
    requires forall k :: IsRoot(m', k) ==> IsRoot(m, k)
    requires FirstRootIn(order, m).Some? && IsRoot(m', FirstRootIn(order, m).value)
    ensures FirstRootIn(order, m') == FirstRootIn(order, m)
  {
    if !IsRoot(m, order[0]) {
      FirstRootInSurvives(order[1..], m, m');
    }
  }

  /** After a collapse (`removeSubtree`), `layout` starts from the first node
      of the old insertion order that is still parentless: the survivors keep
      their order. So collapsing a node outside the laid-out root's subtree
      keeps that root, and collapsing the root itself moves on to the next
      surviving parentless node. */
  lemma CollapseFirstRoot(s: Store, nodeId: Id, rank: map<Id, nat>)
    requires Ranked(s.nodes, rank)
    ensures RootId(RemoveSubtree(s, nodeId, rank))
      == FirstRootIn(s.order, RemoveSubtree(s, nodeId, rank).nodes)
    ensures RootId(s).Some? && RootId(s).value !in Desc(s.nodes, nodeId, rank) ==>
      RootId(RemoveSubtree(s, nodeId, rank)) == RootId(s)
  {
    CollapseRootOrder(s, nodeId, rank);
    if RootId(s).Some? && RootId(s).value !in Desc(s.nodes, nodeId, rank) {
      CollapseRootKept(s, nodeId, rank);
    }
  }

  /** `RootId` is the list-based first root of the insertion order. */
  lemma RootIdIn(s: Store)
    ensures RootId(s) == FirstRootIn(s.order, s.nodes)
  {
    assert s.order[0..] == s.order;
    FirstRootFromIn(s.order, s.nodes, 0);
  }

  /** The first half of `CollapseFirstRoot`: the root after a collapse is
      found along the old insertion order. */
  lemma CollapseRootOrder(s: Store, nodeId: Id, rank: map<Id, nat>)
    requires Ranked(s.nodes, rank)
    ensures RootId(RemoveSubtree(s, nodeId, rank))
      == FirstRootIn(s.order, RemoveSubtree(s, nodeId, rank).nodes)
  {
    var r := RemoveSubtree(s, nodeId, rank);
    RootIdIn(r);
    if nodeId in s.nodes {
      FirstRootInFilter(s.order, r.nodes, k => k in r.nodes);
    }
  }

  /** A collapse creates no new root: every parentless survivor was
      parentless before. */
  lemma CollapseRootsShrink(s: Store, nodeId: Id, rank: map<Id, nat>)
    requires Ranked(s.nodes, rank)
    ensures forall k :: IsRoot(RemoveSubtree(s, nodeId, rank).nodes, k) ==> IsRoot(s.nodes, k)
  {
  }

  /** A root outside the collapsed subtree survives as a root. */
  lemma CollapseKeepsRoot(s: Store, nodeId: Id, rank: map<Id, nat>, x: Id)
    requires Ranked(s.nodes, rank)
    requires IsRoot(s.nodes, x) && x !in Desc(s.nodes, nodeId, rank)
    ensures IsRoot(RemoveSubtree(s, nodeId, rank).nodes, x)
  {
  }

  /** The second half of `CollapseFirstRoot`: a laid-out root outside the
      collapsed subtree stays the laid-out root. */
  lemma CollapseRootKept(s: Store, nodeId: Id, rank: map<Id, nat>)
    requires Ranked(s.nodes, rank)
    requires RootId(s).Some? && RootId(s).value !in Desc(s.nodes, nodeId, rank)
    ensures RootId(RemoveSubtree(s, nodeId, rank)) == RootId(s)
  {
    var r := RemoveSubtree(s, nodeId, rank);
    RootIdIn(s);
    CollapseRootOrder(s, nodeId, rank);
    CollapseRootsShrink(s, nodeId, rank);
    CollapseKeepsRoot(s, nodeId, rank, RootId(s).value);
    FirstRootInSurvives(s.order, s.nodes, r.nodes);
  }

}

=== FILE: tree.dfy ===
/** The tree shape the store has while ids stay unique: every listed child
    exists, names its lister as parent, and is listed once; and the
    consequence the layout relies on, that sibling subtrees are disjoint. */
module Tree {
  import opened Basics
  import opened Ids
  import opened NodeStore

  ghost predicate ChildrenPresent(m: map<Id, Node>) {
    forall p, i :: p in m && 0 <= i < |m[p].childIds| ==> m[p].childIds[i] in m
  }

  ghost predicate ParentLinked(m: map<Id, Node>) {
    forall p, i :: p in m && 0 <= i < |m[p].childIds| && m[p].childIds[i] in m ==>
      m[m[p].childIds[i]].parentId == Some(p)
  }

  ghost predicate DistinctChildren(m: map<Id, Node>) {
    forall p :: p in m ==> Distinct(m[p].childIds)
  }

  /** An acyclic, closed, doubly linked tree (a forest, when several nodes are
      parentless). */
  ghost predicate WellFormed(m: map<Id, Node>, rank: map<Id, nat>) {
    && Ranked(m, rank)
    && ChildrenPresent(m)
    && ParentLinked(m)
    && DistinctChildren(m)
  }

  /** A descendant other than the top has a lister inside the subtree. */
  lemma {:induction false} DescHasLister(m: map<Id, Node>, x: Id, rank: map<Id, nat>, k: Id)
    requires Ranked(m, rank) && k in Desc(m, x, rank) && k != x
    ensures exists q, i :: q in Desc(m, x, rank) && q in m && 0 <= i < |m[q].childIds| && m[q].childIds[i] == k
    decreases if x in m then rank[x] + 1 else 0
  {
    var kids := m[x].childIds;
    DescAllMember(m, kids, rank, rank[x], k);
    var i :| 0 <= i < |kids| && k in Desc(m, kids[i], rank);
    DescRank(m, kids[i], rank, k);
    ChildInDesc(m, x, rank, i);
    assert x in Desc(m, x, rank);
    if k != kids[i] {
      DescHasLister(m, kids[i], rank, k);
      var q, j :| q in Desc(m, kids[i], rank) && q in m && 0 <= j < |m[q].childIds| && m[q].childIds[j] == k;
      DescTransitive(m, x, rank, kids[i]);
    }
  }

  /** Two subtrees that share a node are nested. */
  lemma {:induction false} SharedDescendant(m: map<Id, Node>, x: Id, y: Id, rank: map<Id, nat>, k: Id)
    requires Ranked(m, rank) && ParentLinked(m)
    requires k in Desc(m, x, rank) && k in Desc(m, y, rank)
    ensures x in Desc(m, y, rank) || y in Desc(m, x, rank)
    decreases (DescRank(m, x, rank, k); rank[x] - rank[k])
  {
    DescRank(m, x, rank, k);
    DescRank(m, y, rank, k);
    if k != x && k != y {
      DescHasLister(m, x, rank, k);
      var q, i :| q in Desc(m, x, rank) && q in m && 0 <= i < |m[q].childIds| && m[q].childIds[i] == k;
      DescHasLister(m, y, rank, k);
      var q', i' :| q' in Desc(m, y, rank) && q' in m && 0 <= i' < |m[q'].childIds| && m[q'].childIds[i'] == k;
      assert q == q';
      DescRank(m, x, rank, q);
      SharedDescendant(m, x, y, rank, q);
    }
  }

  /** No child lies inside the subtree of one of its siblings. */
  lemma SiblingNotBelow(m: map<Id, Node>, p: Id, rank: map<Id, nat>, i: nat, j: nat)
    requires WellFormed(m, rank) && p in m
    requires i < |m[p].childIds| && j < |m[p].childIds| && i != j
    ensures m[p].childIds[i] !in Desc(m, m[p].childIds[j], rank)
  {
    var a, b := m[p].childIds[i], m[p].childIds[j];
    if a in Desc(m, b, rank) {
      DescHasLister(m, b, rank, a);
      var q, n :| q in Desc(m, b, rank) && q in m && 0 <= n < |m[q].childIds| && m[q].childIds[n] == a;
      assert q == p;
      DescRank(m, b, rank, p);
      assert false;
    }
  }

  /** The subtrees of distinct siblings are disjoint. */
  lemma SiblingsDisjoint(m: map<Id, Node>, p: Id, rank: map<Id, nat>, i: nat, j: nat)
    requires WellFormed(m, rank) && p in m
    requires i < |m[p].childIds| && j < |m[p].childIds| && i != j
    ensures Desc(m, m[p].childIds[i], rank) !! Desc(m, m[p].childIds[j], rank)
  {
    var a, b := m[p].childIds[i], m[p].childIds[j];
    if k :| k in Desc(m, a, rank) && k in Desc(m, b, rank) {
      SharedDescendant(m, a, b, rank, k);
      SiblingNotBelow(m, p, rank, i, j);
      SiblingNotBelow(m, p, rank, j, i);
    }
  }
}
